=== FILE: README.md ===
# Fusion 360 synchronisation for Odoo, modelled in Dafny

This project models the synchronisation logic of the `odoo_fusion` add-on,
which keeps Odoo records in step with data pushed from Autodesk Fusion 360:

- **BOM line reconciliation** (`MrpBom.sync_from_fusion`): find or create the
  bill of materials of a product template, then bring its component lines in
  line with the components Fusion sends. Quantities of matched lines are
  updated, lines for new products are created, pre-existing lines no
  component matched are deleted, and components whose UUID and configuration
  resolve to no product are skipped.
- **Product-keyed BOM upsert** (`MrpBom.create_or_update_from_fusion`).
- **User upsert** (`FusionUser.sync_from_fusion`), keyed by the Fusion id,
  with the `UNIQUE(fusion_id)` constraint and the e-mail link to a contact.
- **Product template upsert** (`FusionProduct.create_or_update_from_fusion`),
  keyed by the Fusion UUID. It draws `default_code` from a sequence. It also
  runs the find-or-create chain for the `Configuration` attribute, its values
  and the template's attribute line.

The ORM is modelled as immutable tables (`Tables.Table`): a map from record
id to record plus the next free id. `search(..., limit=1)` returns the least
matching id, `create` inserts at the next id and `write` replaces a row. A
raised exception becomes a `Failure` that returns no store, because the
transaction is rolled back. The `fusion.product.default.code` sequence is a
counter.

Files:

- `wrappers.dfy`: `Option`, `Result`, and `Field` (a dictionary key that may be missing).
- `tables.dfy`: the table store and its `Search`, `Insert`, `Update`.
- `mrp_bom.dfy`, `mrp_bom_proofs.dfy`: both BOM operations, and the proof of the line reconciliation through a loop invariant.
- `fusion_user.dfy`: the user upsert, the uniqueness invariant and the finding below.
- `fusion_product.dfy`, `fusion_product_proofs.dfy`: the template upsert, the configuration chain and their proofs.

Two behaviours of the BOM loop are modelled as the code runs. Neither is
excluded by a precondition:

- Looking up a product's line sees lines created earlier in the same sync,
  because Odoo keeps the one2many `bom_line_ids` in step with `create`. A
  product named twice therefore gets one line, and the last component's
  quantity wins.
- A BOM that already holds two lines for a resolved product makes `line.id`
  raise ("Expected singleton"). The sync then fails with `ExpectedSingleton`.

## Model

| member | source | states |
|---|---|---|
| Tables.Search | models/mrp_bom.py:100 | `search(limit=1)`: the result matches the domain and no smaller id does; `None` exactly when nothing matches |
| Tables.Insert | models/mrp_bom.py:103-106 | `create`: the new record gets a fresh id, all old records are kept, and the table stays well formed |
| Tables.Update | models/mrp_bom.py:63 | `write` on one record: that row is replaced; ids and every other row are unchanged |
| Tables.SearchFindsInserted | models/fusion_product.py:48-52 | when nothing matched, a search after creating a matching record finds the new record |
| Tables.SearchAfterUpdate | models/mrp_bom.py:63 | rewriting the record a search found, keeping it matching, leaves the search result unchanged |
| Tables.SearchAfterInsert | models/fusion_product.py:44-52 | creating a record does not change which record an earlier successful search finds |
| MrpBom.FindOrCreateForTemplate | models/mrp_bom.py:100-106 | the first BOM of the template is reused and nothing is created; it is the BOM the search finds, and nothing is created; if there is none, exactly one BOM is created, holding only the template and type `'normal'`, with no product and no line commands |
| MrpBom.SyncFromFusion | models/mrp_bom.py:98-157 | a template id that is not stored fails, because creating its BOM violates the `product_tmpl_id` foreign key; a missing `components` key fails; on success the BOM id is the one find-or-create gave, for this template, and the store keeps its foreign keys |
| MrpBomProofs.LastMention | models/mrp_bom.py:125-133 | the position of the last component resolving to a product, none after it; `None` when no component does |
| MrpBomProofs.RunInv | models/mrp_bom.py:112-141 | after each prefix of the components, old lines carry the last matching quantity, new lines are one per product with no old line, and the keep map marks an old line exactly when its product is named; the loop fails exactly when some component lacks a key or hits a duplicated line |
| MrpBomProofs.SyncFromFusionLines | models/mrp_bom.py:108-150 | success iff the template is stored, every component has its keys and no resolved product has two lines; then other BOMs' lines are untouched, an old line survives iff some component resolves to its product, survivors take the last such quantity, new lines are only for products without a line, and each resolved product ends with exactly one line |
| MrpBomProofs.SyncSkipsUnresolved | models/mrp_bom.py:116-122 | inserting a component that resolves to no product anywhere in the list leaves the sync's result unchanged |
| MrpBomProofs.FindOrCreateStable | models/mrp_bom.py:100-106 | a second find-or-create for the same template finds the same BOM and creates nothing |
| MrpBomProofs.NewBomStartsEmpty | models/mrp_bom.py:101-109 | a BOM the sync creates has no lines in the `current_lines` snapshot, because every stored line belongs to an existing BOM; the sync then deletes and rewrites no old line, and each line of the new BOM is one the sync created |
| MrpBomProofs.SyncIdempotent | models/mrp_bom.py:98-153 | repeating a successful sync with the same components leaves the store and BOM id unchanged |
| MrpBom.CreateOrUpdateForProduct | models/mrp_bom.py:44-65 | a product id that is not stored fails; otherwise the product's BOM is written with its template, the product, type `'normal'` and the line commands; it is the BOM the search by `product_id` finds, or else a new one; no other BOM and no line changes |
| MrpBomProofs.CreateOrUpdateForProductStable | models/mrp_bom.py:48-63 | a second identical upsert finds the BOM the first one left and changes nothing |
| FusionUser.LowerString | models/fusion_user.py:70 | the case folding used for `=ilike`: same length, each character folded |
| FusionUser.WriteIdempotent | models/fusion_user.py:64 | `write` with no keys leaves the user as it is, and writing the same values twice is the same as writing them once |
| FusionUser.WriteLastWins | models/fusion_user.py:64 | a later `write` that sets every key an earlier one set erases that earlier write, and a `write` that sets every field gives the same record whatever the user held before |
| FusionUser.PartnerFor | models/fusion_user.py:67-76 | a contact is looked up only when an e-mail is given; a found contact's e-mail matches case-insensitively, archived or not; none is found only when none matches |
| FusionUser.NewUser | models/fusion_user.py:66-79 | creation fails exactly when the required name or display name is missing, or when the contact it links to is not stored (the `partner_id` foreign key); the new user has the Fusion id and the e-mail of `vals`, and `active` defaults to true; when an e-mail is given and some contact, archived or not, has that e-mail up to case, the user is linked to such a contact, and otherwise to the `partner_id` of `vals` |
| FusionUser.SyncFromFusion | models/fusion_user.py:53-79 | no Fusion id gives `False` and changes nothing (and only then); a user holding the id is updated in place and its id returned, with no record created, and the update fails exactly when `vals` names a contact that is not stored; otherwise exactly one user is created and its id returned, or creation fails as `NewUser` says |
| FusionUser.SyncKeepsFusionIdsUnique | models/fusion_user.py:48-51 | every successful sync keeps Fusion ids unique |
| FusionUser.UpdateIgnoresPartners | models/fusion_user.py:62-65 | on the update path the contacts are not searched by e-mail: two contact tables that agree on whether `vals`' `partner_id` is stored give the same result |
| FusionUser.SyncIdempotent | models/fusion_user.py:53-79 | syncing the same values again finds the same user and changes nothing |
| FusionUser.SyncFromFusionAsWritten | models/fusion_user.py:60 | the lookup as written skips archived users, so a Fusion id held only by archived users fails |
| FusionUser.AsWrittenAgreesWithoutArchivedHolder | models/fusion_user.py:60 | the code as written and the corrected sync agree whenever no archived user holds the Fusion id |
| FusionUser.ArchivedHolderRejectedAsWritten | models/fusion_user.py:60 | an archived holder of the Fusion id makes the code as written fail, while the corrected sync updates that user, failing only when `vals` names a contact that is not stored |
| FusionUser.ArchivedHolderExample | models/fusion_user.py:60-79 | the concrete input: one archived user `F-1`; as written the sync fails on the unique constraint, corrected it returns that user's id |
| FusionProduct.SequenceCode | models/fusion_product.py:24 | a drawn code is a non-empty string of digits |
| FusionProductProofs.SequenceCodeInjective | models/fusion_product.py:23-24 | different counter values give different codes, so a code drawn from the sequence is never one drawn before |
| FusionProduct.UpsertTemplate | models/fusion_product.py:13-29 | found by UUID and updated in place, or exactly one template created; name, UUID, description and version are overwritten; a code is drawn, and the counter advances by one, only for a new template or an empty code; an existing code is kept |
| FusionProductProofs.CodeDrawnOnce | models/fusion_product.py:22-24 | after one sync, a later sync of the same UUID finds the same template, keeps its code and draws nothing |
| FusionProduct.ConfigurationAttribute | models/fusion_product.py:35-40 | the first `Configuration` attribute is reused; if there is none, one is created with `create_variant='always'` |
| FusionProductProofs.ConfigurationAttributeOnce | models/fusion_product.py:35-40 | when none existed, the created attribute is the only one of that name, and a later lookup finds it and creates nothing |
| FusionProduct.EnsureValue | models/fusion_product.py:44-52 | the value with that name under the attribute is reused, or exactly one is created |
| FusionProduct.AddToLine | models/fusion_product.py:62-73 | the value is added to the template's first line for the attribute; only when there is none is a line created, holding just that value |
| FusionProduct.CreateOrUpdateFromFusion | models/fusion_product.py:10-75 | the template part is `UpsertTemplate`; attributes, values and lines change only when `is_configuration` is set and `configurations` is non-empty |
| FusionProductProofs.ConfigureInv | models/fusion_product.py:43-73 | after each prefix of the configurations, old values are unchanged, new values are one per missing name, every name has a value, and the lines are the old lines plus the values without a variant |
| FusionProductProofs.AddAllLines | models/fusion_product.py:62-73 | adding several values changes nothing for none; otherwise the existing line gains exactly those values, or one new line is created holding them |
| FusionProductProofs.PickedHas | models/fusion_product.py:55-60 | the value of every configuration without a variant is put on the line |
| FusionProductProofs.PickedOnly | models/fusion_product.py:55-60 | only values of configurations without a variant are put on the line |
| FusionProductProofs.ConfigurationValues | models/fusion_product.py:42-52 | after the call every configuration name has a value under the `Configuration` attribute; at most one value is created per name, and only when none existed |
| FusionProductProofs.NewTemplateLine | models/fusion_product.py:26-73 | a template the sync creates has no attribute line and no variant, so exactly one line is created, for that template and the `Configuration` attribute, holding the value of every configuration; no old line changes |
| FusionProductProofs.ConfigurationLine | models/fusion_product.py:54-73 | the template's `Configuration` line holds the value of every configuration without a variant and gains nothing else; at most one line is created, only when the template had none, and it is then the template's line for the attribute; no other line changes; when every configuration already has a variant, no line changes at all |

## Left out

- Logging (`_logger`) is not modelled; it has no effect on the data.
- Concurrency, the ORM cache and SQL are not modelled. The tables are a sequential, deterministic store.
- Tables.Search: `search(limit=1)` follows the model's default order (`mrp.bom` orders by sequence, then id). The model takes the least id, so it says which record is found only up to that order.
- Archived records of Odoo's own models (`mrp.bom`, `product.template`, attributes, values, lines) are not modelled. Their searches skip archived rows, and the model has no such rows. `fusion.user`'s own `active` field is modelled, because it causes the finding below.
- FusionUser.PartnerFor: `=ilike` is SQL pattern matching, so `_` and `%` in an e-mail act as wildcards. The model uses ASCII case-insensitive equality.
- FusionUser: the table of users does not require a stored user's `partner_id` to name a stored contact. The sync itself only writes contacts the foreign key accepts.
- FusionUser.SyncIdempotent: stated only for values that do not name a `partner_id` themselves. For a fresh dictionary that names its own `partner_id`, a second sync writes that value over the contact the first sync found by e-mail.
- FusionUser: a `vals` key whose value is `None` is treated like a missing key. Other keys of `vals` (`design_ids`, unknown fields) are not modelled. Line 76 sets `partner_id` in the caller's own dictionary, which Python passes by reference, so the caller sees it even when the `create` then fails. The model passes `vals` by value and does not model that change; a caller that passes the same dictionary again is modelled as passing the original one.
- MrpBom: which product a component resolves to is an input function. `product.template.get_product_variant_by_uuid` is not part of this model.
- MrpBom.CreateOrUpdateForProduct: the `bom_line_ids` commands are stored as an opaque list, and their effect on the lines is not modelled. A product id that is not stored fails with `MissingProduct`: in Odoo, browsing a missing id raises when its template is read.
- MrpBom: a line's quantity is an unbounded integer. In Odoo, `mrp.bom.line.product_qty` is a float with the constraint `CHECK (product_qty>=0)`, so a negative quantity makes the sync fail. The model accepts it.
- MrpBom: the component keys `part_number` and any others are never read and are not modelled. A missing key that is read (`name`, `fusion_uuid`, `configuration_id`, `quantity`, `components`) fails the sync, because the `KeyError` is inside the `try`. The error message text is not modelled.
- FusionProduct: product variants are generated by Odoo from attribute lines, and that is not modelled. Which (template, value) pairs already have a variant is a fixed input for the whole call. Odoo would create variants as lines gain values with `create_variant='always'`, but its variant search only ever skips values that are already on a line, so the line contents come out the same. The input is taken to name stored templates only (`VariantsIn`), which FusionProductProofs.NewTemplateLine relies on; the other members do not assume it.
- FusionProduct: each configuration is reduced to its `name`. A configuration without a `name` key, or component data without `name`, `fusion_uuid` or `description`, raises `KeyError`; those inputs are not modelled.
- FusionProduct.UpsertTemplate: `default_code` is modelled as a field stored on the template. In Odoo 17, `product.template.default_code` is computed from the variants: it reads as empty unless the template has exactly one variant, and writing it has no effect otherwise. So a template with two or more variants, which the configuration branch produces, draws a new code on every later sync. UpsertTemplate and FusionProductProofs.CodeDrawnOnce describe a template with a single variant.
- FusionProduct.SequenceCode: the sequence's prefix and padding come from `data/fusion_sequence.xml`, which is not part of this model. The code is the counter in decimal. `next_by_code` returning `False` when the sequence is missing is not modelled.
- models/fusion_design.py is not part of this model. It copies fields and calls into models whose code is not shown.
- models/res_config_settings.py and `__manifest__.py` only declare settings and metadata; they hold no logic to model.

## Findings

| source | as written | input that shows it | evidently intended | confidence | as-written member | corrected member |
|---|---|---|---|---|---|---|
| models/fusion_user.py:60 | `fusion.user` has an `active` field, so `search([('fusion_id', '=', …)])` skips archived users. A Fusion id held by an archived user is not found, and `create` then violates `UNIQUE(fusion_id)`, so the sync raises. | one archived user with Fusion id `F-1`; sync `{'fusion_id': 'F-1', 'name': 'ana', 'display_name': 'Ana'}` | the user holding the id is updated whether archived or not, as the contact search on lines 69-74 does with `active` in both states | medium, not executed | FusionUser.ArchivedHolderRejectedAsWritten | FusionUser.SyncFromFusion |

=== FILE: fusion_product.dfy ===
/**
 Product templates synchronised from Fusion components (`product.template`
 extension), and the `Configuration` attribute through which Fusion
 configurations become product variants.

 The catalog holds the templates, the counter behind the
 `fusion.product.default.code` sequence, the attributes, their values and the
 templates' attribute lines. Which (template, value) pairs already have a
 product variant is an input: Odoo generates variants from attribute lines on
 its own, and that generation is not part of this model.
 */
module FusionProduct {
  import opened Wrappers
  import opened Tables

  datatype Template = Template(
    name: string,
    fusionUuid: string,
    description: string,
    fusionVersion: Option<int>,
    defaultCode: string)

  datatype CreateVariant = Always | Dynamic | NoVariant

  datatype Attribute = Attribute(name: string, createVariant: CreateVariant)

  datatype AttributeValue = AttributeValue(name: string, attribute: nat)

  /** A `product.template.attribute.line`: the values of one attribute a
      template is offered in. */
  datatype AttributeLine = AttributeLine(template: nat, attribute: nat, values: set<nat>)

  datatype Catalog = Catalog(
    templates: Table<Template>,
    nextCode: nat,
    attributes: Table<Attribute>,
    values: Table<AttributeValue>,
    lines: Table<AttributeLine>)
  {
    /** The tables are well formed, and `attribute_id` and `product_tmpl_id`
        are required foreign keys: every value belongs to a stored attribute,
        and every line to a stored template and attribute. */
    ghost predicate Valid() {
      && templates.Valid() && attributes.Valid() && values.Valid() && lines.Valid()
      && (forall k :: k in values.rows ==> values.rows[k].attribute in attributes.rows)
      && (forall k :: k in lines.rows ==> lines.rows[k].template in templates.rows && lines.rows[k].attribute in attributes.rows)
    }
  }

  /** The component dictionary. `name`, `fusion_uuid` and `description` are
      read with `[]`; the other keys with `.get`, `None` standing for a
      missing key. */
  datatype FusionData = FusionData(
    name: string,
    fusionUuid: string,
    description: string,
    versionNumber: Option<int>,
    isConfiguration: Option<bool>,
    configurations: Option<seq<string>>)

  const ConfigurationName: string := "Configuration"

  /** The pairs (template id, attribute value id) that already have a variant. */
  type Variants = set<(nat, nat)>

  function Digit(d: nat): (c: char)
    requires d < 10
    ensures '0' <= c <= '9'
  {
    ['0', '1', '2', '3', '4', '5', '6', '7', '8', '9'][d]
  }

  /** The code `next_by_code` returns for counter value `n`, in decimal. */
  function SequenceCode(n: nat): (code: string)
    ensures code != [] && forall i :: 0 <= i < |code| ==> '0' <= code[i] <= '9'
  {
    if n < 10 then [Digit(n)] else SequenceCode(n / 10) + [Digit(n % 10)]
  }

  function WithUuid(uuid: string): Template -> bool {
    (t: Template) => t.fusionUuid == uuid
  }

  function AttributeNamed(name: string): Attribute -> bool {
    (a: Attribute) => a.name == name
  }

  function ValueNamed(name: string, attribute: nat): AttributeValue -> bool {
    (v: AttributeValue) => v.name == name && v.attribute == attribute
  }

  function LineFor(template: nat, attribute: nat): AttributeLine -> bool {
    (l: AttributeLine) => l.template == template && l.attribute == attribute
  }

  /** The template part of `create_or_update_from_fusion`: find the template by
      Fusion UUID, overwrite the Fusion fields, and draw a code from the
      sequence only when the template is new or has no code. */
  function UpsertTemplate(c: Catalog, data: FusionData): (r: (Catalog, nat))
    requires c.Valid()
    ensures var (c', t) := r;
      && c'.Valid() && c'.attributes == c.attributes && c'.values == c.values && c'.lines == c.lines
      && t in c'.templates.rows
      && c'.templates.rows[t].name == data.name && c'.templates.rows[t].fusionUuid == data.fusionUuid
      && c'.templates.rows[t].description == data.description
      && c'.templates.rows[t].fusionVersion == data.versionNumber
      && c'.templates.rows[t].defaultCode != ""
      && (forall k :: k in c.templates.rows && k != t ==> k in c'.templates.rows && c'.templates.rows[k] == c.templates.rows[k])
    // an existing template is updated; a code it has is kept and no code is drawn
    ensures var found := Search(c.templates, WithUuid(data.fusionUuid));
      found.Some? ==>
        && r.1 == found.value && r.0.templates.rows.Keys == c.templates.rows.Keys
        && (c.templates.rows[r.1].defaultCode != "" ==>
              r.0.templates.rows[r.1].defaultCode == c.templates.rows[r.1].defaultCode && r.0.nextCode == c.nextCode)
        && (c.templates.rows[r.1].defaultCode == "" ==>
              r.0.templates.rows[r.1].defaultCode == SequenceCode(c.nextCode) && r.0.nextCode == c.nextCode + 1)
    // otherwise exactly one template is created, with the next code
    ensures Search(c.templates, WithUuid(data.fusionUuid)).None? ==>
        && r.1 !in c.templates.rows && r.0.templates.rows.Keys == c.templates.rows.Keys + {r.1}
        && r.0.templates.rows[r.1].defaultCode == SequenceCode(c.nextCode) && r.0.nextCode == c.nextCode + 1
  {
    var found := Search(c.templates, WithUuid(data.fusionUuid));
    var draw := found.None? || c.templates.rows[found.value].defaultCode == "";
    var code := if draw then SequenceCode(c.nextCode) else c.templates.rows[found.value].defaultCode;
    var nextCode := if draw then c.nextCode + 1 else c.nextCode;
    var record := Template(data.name, data.fusionUuid, data.description, data.versionNumber, code);
    match found
    case None => (c.(templates := Insert(c.templates, record), nextCode := nextCode), c.templates.nextId)
    case Some(t) => (c.(templates := Update(c.templates, t, record), nextCode := nextCode), t)
  }

  /** Find the `Configuration` attribute, creating it with
      `create_variant='always'` when there is none. */
  function ConfigurationAttribute(attributes: Table<Attribute>): (r: (Table<Attribute>, nat))
    requires attributes.Valid()
    ensures r.0.Valid() && r.1 in r.0.rows && r.0.rows[r.1].name == ConfigurationName
    ensures Search(attributes, AttributeNamed(ConfigurationName)).Some? ==> r.0 == attributes
    ensures Search(attributes, AttributeNamed(ConfigurationName)).None? ==>
              && r.1 !in attributes.rows && r.0.rows.Keys == attributes.rows.Keys + {r.1}
              && r.0.rows[r.1] == Attribute(ConfigurationName, Always)
              && (forall k :: k in attributes.rows ==> r.0.rows[k] == attributes.rows[k])
  {
    match Search(attributes, AttributeNamed(ConfigurationName))
    case Some(a) => (attributes, a)
    case None => (Insert(attributes, Attribute(ConfigurationName, Always)), attributes.nextId)
  }

  /** Every value of `values` belongs to `attribute` or is a value of
      `values0` still under its attribute. */
  ghost predicate ValuesStayIn(values0: Table<AttributeValue>, attribute: nat, values: Table<AttributeValue>) {
    forall k :: k in values.rows ==>
      values.rows[k].attribute == attribute || (k in values0.rows && values.rows[k].attribute == values0.rows[k].attribute)
  }

  /** Every line of `lines` is the template's line for `attribute` or a line
      of `lines0` still on its template and attribute. */
  ghost predicate LinesStayIn(lines0: Table<AttributeLine>, template: nat, attribute: nat, lines: Table<AttributeLine>) {
    forall k :: k in lines.rows ==>
      (lines.rows[k].template == template && lines.rows[k].attribute == attribute)
      || (k in lines0.rows && lines.rows[k].template == lines0.rows[k].template
          && lines.rows[k].attribute == lines0.rows[k].attribute)
  }

  /** Find the value called `name` of attribute `attribute`, creating it when
      there is none. */
  function EnsureValue(values: Table<AttributeValue>, attribute: nat, name: string): (r: (Table<AttributeValue>, nat))
    requires values.Valid()
    ensures r.0.Valid() && r.1 in r.0.rows && r.0.rows[r.1] == AttributeValue(name, attribute)
    ensures Search(values, ValueNamed(name, attribute)).Some? ==> r.0 == values
    ensures Search(values, ValueNamed(name, attribute)).None? ==>
              r.1 == values.nextId && r.0 == Insert(values, AttributeValue(name, attribute))
  {
    match Search(values, ValueNamed(name, attribute))
    case Some(v) => (values, v)
    case None => (Insert(values, AttributeValue(name, attribute)), values.nextId)
  }

  /** Add value `value` to the template's line for `attribute`, creating the
      line when the template has none (the x2many command `(4, value)`). */
  function AddToLine(lines: Table<AttributeLine>, template: nat, attribute: nat, value: nat): (r: Table<AttributeLine>)
    requires lines.Valid()
    ensures r.Valid()
    ensures Search(lines, LineFor(template, attribute)).Some? ==>
              var l := Search(lines, LineFor(template, attribute)).value;
              && r.rows.Keys == lines.rows.Keys && r.nextId == lines.nextId
              && r.rows[l] == lines.rows[l].(values := lines.rows[l].values + {value})
              && (forall k :: k in lines.rows && k != l ==> r.rows[k] == lines.rows[k])
    ensures Search(lines, LineFor(template, attribute)).None? ==>
              r == Insert(lines, AttributeLine(template, attribute, {value}))
  {
    match Search(lines, LineFor(template, attribute))
    case None => Insert(lines, AttributeLine(template, attribute, {value}))
    case Some(l) => Update(lines, l, lines.rows[l].(values := lines.rows[l].values + {value}))
  }

  /** One pass of the configuration loop: make sure the value exists, and
      when the template has no variant for it yet, put it on the line. */
  function ConfigureOne(values: Table<AttributeValue>, lines: Table<AttributeLine>, template: nat, attribute: nat,
                        name: string, variants: Variants)
    : (r: (Table<AttributeValue>, Table<AttributeLine>))
    requires values.Valid() && lines.Valid()
    ensures r.0.Valid() && r.1.Valid()
    ensures ValuesStayIn(values, attribute, r.0) && LinesStayIn(lines, template, attribute, r.1)
  {
    var (values', v) := EnsureValue(values, attribute, name);
    if (template, v) in variants then (values', lines)
    else (values', AddToLine(lines, template, attribute, v))
  }

  /** The loop over `fusion_data['configurations']`. */
  function Configure(values: Table<AttributeValue>, lines: Table<AttributeLine>, template: nat, attribute: nat,
                     names: seq<string>, variants: Variants)
    : (r: (Table<AttributeValue>, Table<AttributeLine>))
    requires values.Valid() && lines.Valid()
    ensures r.0.Valid() && r.1.Valid()
    ensures ValuesStayIn(values, attribute, r.0) && LinesStayIn(lines, template, attribute, r.1)
    decreases |names|
  {
    if names == [] then (values, lines)
    else
      var (values', lines') := Configure(values, lines, template, attribute, names[..|names| - 1], variants);
      ConfigureOne(values', lines', template, attribute, names[|names| - 1], variants)
  }

  /** The variants input describes stored products: every pair names a
      stored template. */
  ghost predicate VariantsIn(c: Catalog, variants: Variants) {
    forall p :: p in variants ==> p.0 in c.templates.rows
  }

  /** `fusion_data.get('is_configuration') and fusion_data.get('configurations')`. */
  predicate HasConfigurations(data: FusionData) {
    data.isConfiguration == Some(true) && data.configurations.Some? && data.configurations.value != []
  }

  /** `FusionProduct.create_or_update_from_fusion`: upsert the template, then
      record its configurations; returns the catalog and the template id. */
  function CreateOrUpdateFromFusion(c: Catalog, data: FusionData, variants: Variants): (r: (Catalog, nat))
    requires c.Valid()
    ensures r.0.Valid()
    ensures (r.0.templates, r.0.nextCode, r.1) == var (c', t) := UpsertTemplate(c, data); (c'.templates, c'.nextCode, t)
    ensures !HasConfigurations(data) ==>
              r.0.attributes == c.attributes && r.0.values == c.values && r.0.lines == c.lines
    ensures HasConfigurations(data) ==> r.0.attributes == ConfigurationAttribute(c.attributes).0
  {
    var (c', t) := UpsertTemplate(c, data);
    if !HasConfigurations(data) then (c', t)
    else
      var (attributes, a) := ConfigurationAttribute(c'.attributes);
      var (values, lines) := Configure(c'.values, c'.lines, t, a, data.configurations.value, variants);
      (c'.(attributes := attributes, values := values, lines := lines), t)
  }
}

=== FILE: fusion_product_proofs.dfy ===
/**
 What `FusionProduct.CreateOrUpdateFromFusion` does to the configuration
 values and the template's attribute line, and how the default code behaves
 over repeated syncs.
 */
module FusionProductProofs {
  import opened Wrappers
  import opened Tables
  import opened FusionProduct

  /** The value ids the loop puts on the template's line, in order: for each
      configuration name, its value, unless the template already has a variant
      for it. */
  function Picked(values: Table<AttributeValue>, template: nat, attribute: nat, names: seq<string>, variants: Variants)
    : seq<nat>
    requires values.Valid()
    decreases |names|
  {
    if names == [] then []
    else
      var rest := Picked(values, template, attribute, names[..|names| - 1], variants);
      match Search(values, ValueNamed(names[|names| - 1], attribute))
      case Some(v) => if (template, v) in variants then rest else rest + [v]
      case None => rest
  }

  /** Adding the values `vs` one after the other to the template's line. */
  function AddAll(lines: Table<AttributeLine>, template: nat, attribute: nat, vs: seq<nat>): (r: Table<AttributeLine>)
    requires lines.Valid()
    ensures r.Valid()
    decreases |vs|
  {
    if vs == [] then lines
    else AddToLine(AddAll(lines, template, attribute, vs[..|vs| - 1]), template, attribute, vs[|vs| - 1])
  }

  function SetOf(vs: seq<nat>): set<nat> {
    set v | v in vs
  }

  /** No value called `name` of `attribute` exists. */
  ghost predicate NoValue(values: Table<AttributeValue>, name: string, attribute: nat) {
    forall k :: k in values.rows ==> !(values.rows[k].name == name && values.rows[k].attribute == attribute)
  }

  /** The values table after the loop over `names`, against the one before:
      nothing old changes, every new value is one per missing name, and every
      name has a value. */
  ghost predicate ValuesInv(values0: Table<AttributeValue>, attribute: nat, names: seq<string>, values: Table<AttributeValue>) {
    && values.Valid()
    && (forall k :: k in values0.rows ==> k in values.rows && values.rows[k] == values0.rows[k])
    && (forall k :: k in values.rows && k !in values0.rows ==>
          && values.rows[k].attribute == attribute && values.rows[k].name in names
          && NoValue(values0, values.rows[k].name, attribute))
    && (forall k1, k2 :: k1 in values.rows && k2 in values.rows && k1 !in values0.rows && k2 !in values0.rows
          && values.rows[k1].name == values.rows[k2].name
          ==> k1 == k2)
    && (forall i :: 0 <= i < |names| ==> Search(values, ValueNamed(names[i], attribute)).Some?)
  }

  lemma {:induction false} PickedStable(values: Table<AttributeValue>, values': Table<AttributeValue>, template: nat,
                                        attribute: nat, names: seq<string>, variants: Variants)
    requires values.Valid() && values'.Valid()
    requires forall i :: 0 <= i < |names| ==>
               Search(values', ValueNamed(names[i], attribute)) == Search(values, ValueNamed(names[i], attribute))
    ensures Picked(values', template, attribute, names, variants) == Picked(values, template, attribute, names, variants)
    decreases |names|
  {
    if names != [] {
      var prefix := names[..|names| - 1];
      assert forall i :: 0 <= i < |prefix| ==> prefix[i] == names[i];
      PickedStable(values, values', template, attribute, prefix, variants);
    }
  }

  /** One more configuration name: its value is found or created, earlier
      names keep their values, and the picked values grow by that value
      exactly when the template has no variant for it. */
  lemma PickedSnoc(values: Table<AttributeValue>, template: nat, attribute: nat, prefix: seq<string>, n: string,
                   variants: Variants)
    requires values.Valid()
    requires forall i :: 0 <= i < |prefix| ==> Search(values, ValueNamed(prefix[i], attribute)).Some?
    ensures var (values', v) := EnsureValue(values, attribute, n);
            && Search(values', ValueNamed(n, attribute)) == Some(v)
            && Picked(values', template, attribute, prefix + [n], variants)
               == if (template, v) in variants then Picked(values, template, attribute, prefix, variants)
                  else Picked(values, template, attribute, prefix, variants) + [v]
  {
    var (values', v) := EnsureValue(values, attribute, n);
    EnsureValueSearches(values, attribute, prefix, n);
    PickedStable(values, values', template, attribute, prefix, variants);
    assert (prefix + [n])[..|prefix|] == prefix;
  }

  /** Finding or creating the value for `n` makes it what a search for `n`
      finds, and changes no earlier name's search. */
  lemma EnsureValueSearches(values: Table<AttributeValue>, attribute: nat, prefix: seq<string>, n: string)
    requires values.Valid()
    requires forall i :: 0 <= i < |prefix| ==> Search(values, ValueNamed(prefix[i], attribute)).Some?
    ensures var (values', v) := EnsureValue(values, attribute, n);
            && Search(values', ValueNamed(n, attribute)) == Some(v)
            && forall i :: 0 <= i < |prefix| ==>
                 Search(values', ValueNamed(prefix[i], attribute)) == Search(values, ValueNamed(prefix[i], attribute))
  {
    if Search(values, ValueNamed(n, attribute)).None? {
      var row := AttributeValue(n, attribute);
      SearchFindsInserted(values, row, ValueNamed(n, attribute));
      forall i | 0 <= i < |prefix|
        ensures Search(Insert(values, row), ValueNamed(prefix[i], attribute)) == Search(values, ValueNamed(prefix[i], attribute))
      {
        SearchAfterInsert(values, row, ValueNamed(prefix[i], attribute));
      }
    }
  }

  lemma ConfigureInv(values0: Table<AttributeValue>, lines0: Table<AttributeLine>, template: nat,
                      attribute: nat, names: seq<string>, variants: Variants)
    requires values0.Valid() && lines0.Valid()
    ensures ValuesInv(values0, attribute, names, Configure(values0, lines0, template, attribute, names, variants).0)
    ensures Configure(values0, lines0, template, attribute, names, variants).1
            == AddAll(lines0, template, attribute,
                      Picked(Configure(values0, lines0, template, attribute, names, variants).0, template, attribute, names, variants))
  {
    ConfigureValues(values0, lines0, template, attribute, names, variants);
    ConfigureLinesFollow(values0, lines0, template, attribute, names, variants);
  }

  /** The values part of the loop invariant. */
  lemma {:induction false} ConfigureValues(values0: Table<AttributeValue>, lines0: Table<AttributeLine>, template: nat,
                                           attribute: nat, names: seq<string>, variants: Variants)
    requires values0.Valid() && lines0.Valid()
    ensures ValuesInv(values0, attribute, names, Configure(values0, lines0, template, attribute, names, variants).0)
    decreases |names|
  {
    if names != [] {
      var prefix := names[..|names| - 1];
      var n := names[|names| - 1];
      assert names == prefix + [n];
      ConfigureValues(values0, lines0, template, attribute, prefix, variants);
      var (values1, lines1) := Configure(values0, lines0, template, attribute, prefix, variants);
      assert Configure(values0, lines0, template, attribute, names, variants).0 == EnsureValue(values1, attribute, n).0;
      ValuesStep(values0, values1, attribute, prefix, n);
    }
  }

  /** The lines part of the loop invariant: the lines are the old lines with
      the picked values added. */
  lemma {:induction false} ConfigureLinesFollow(values0: Table<AttributeValue>, lines0: Table<AttributeLine>, template: nat,
                                                attribute: nat, names: seq<string>, variants: Variants)
    requires values0.Valid() && lines0.Valid()
    ensures Configure(values0, lines0, template, attribute, names, variants).1
            == AddAll(lines0, template, attribute,
                      Picked(Configure(values0, lines0, template, attribute, names, variants).0, template, attribute, names, variants))
    decreases |names|
  {
    if names != [] {
      var prefix := names[..|names| - 1];
      var n := names[|names| - 1];
      assert names == prefix + [n];
      ConfigureLinesFollow(values0, lines0, template, attribute, prefix, variants);
      ConfigureValues(values0, lines0, template, attribute, prefix, variants);
      var (values1, lines1) := Configure(values0, lines0, template, attribute, prefix, variants);
      ConfigureStepLines(lines0, values1, lines1, template, attribute, prefix, n, variants);
    }
  }

  lemma ConfigureStepLines(lines0: Table<AttributeLine>, values1: Table<AttributeValue>, lines1: Table<AttributeLine>,
                           template: nat, attribute: nat, prefix: seq<string>, n: string, variants: Variants)
    requires lines0.Valid() && lines1.Valid() && values1.Valid()
    requires forall i :: 0 <= i < |prefix| ==> Search(values1, ValueNamed(prefix[i], attribute)).Some?
    requires lines1 == AddAll(lines0, template, attribute, Picked(values1, template, attribute, prefix, variants))
    ensures ConfigureOne(values1, lines1, template, attribute, n, variants).1
            == AddAll(lines0, template, attribute,
                      Picked(ConfigureOne(values1, lines1, template, attribute, n, variants).0, template, attribute, prefix + [n], variants))
  {
    var (values2, v) := EnsureValue(values1, attribute, n);
    var picked1 := Picked(values1, template, attribute, prefix, variants);
    PickedSnoc(values1, template, attribute, prefix, n, variants);
    if (template, v) !in variants {
      assert (picked1 + [v])[..|picked1|] == picked1;
      assert AddAll(lines0, template, attribute, picked1 + [v]) == AddToLine(lines1, template, attribute, v);
    }
  }

  lemma ValuesStep(values0: Table<AttributeValue>, values1: Table<AttributeValue>, attribute: nat, prefix: seq<string>, n: string)
    requires values0.Valid() && ValuesInv(values0, attribute, prefix, values1)
    ensures ValuesInv(values0, attribute, prefix + [n], EnsureValue(values1, attribute, n).0)
  {
    var names := prefix + [n];
    assert forall i :: 0 <= i < |prefix| ==> names[i] == prefix[i];
    assert names[|prefix|] == n;
    if Search(values1, ValueNamed(n, attribute)).None? {
      ValuesCreatedSearches(values1, attribute, prefix, n);
      ValuesCreatedRows(values0, values1, attribute, prefix, n);
    }
  }

  /** Creating the value for `n` keeps every earlier name's value findable
      and makes `n`'s findable. */
  lemma ValuesCreatedSearches(values1: Table<AttributeValue>, attribute: nat, prefix: seq<string>, n: string)
    requires values1.Valid() && Search(values1, ValueNamed(n, attribute)).None?
    requires forall i :: 0 <= i < |prefix| ==> Search(values1, ValueNamed(prefix[i], attribute)).Some?
    ensures var values2 := Insert(values1, AttributeValue(n, attribute));
            forall i :: 0 <= i < |prefix + [n]| ==> Search(values2, ValueNamed((prefix + [n])[i], attribute)).Some?
  {
    var names := prefix + [n];
    var row := AttributeValue(n, attribute);
    forall i | 0 <= i < |names| ensures Search(Insert(values1, row), ValueNamed(names[i], attribute)).Some? {
      if i < |prefix| {
        assert names[i] == prefix[i];
        SearchAfterInsert(values1, row, ValueNamed(prefix[i], attribute));
      } else {
        SearchFindsInserted(values1, row, ValueNamed(n, attribute));
      }
    }
  }

  /** Creating the value for `n` when none existed: old rows stay, the new row
      is for a missing name in the list, and no other new row has its name. */
  lemma ValuesCreatedRows(values0: Table<AttributeValue>, values1: Table<AttributeValue>, attribute: nat,
                          prefix: seq<string>, n: string)
    requires values0.Valid() && ValuesInv(values0, attribute, prefix, values1)
    requires Search(values1, ValueNamed(n, attribute)).None?
    ensures var values2 := Insert(values1, AttributeValue(n, attribute));
            forall k :: k in values0.rows ==> k in values2.rows && values2.rows[k] == values0.rows[k]
    ensures var values2 := Insert(values1, AttributeValue(n, attribute));
            forall k :: k in values2.rows && k !in values0.rows ==>
              && values2.rows[k].attribute == attribute && values2.rows[k].name in prefix + [n]
              && NoValue(values0, values2.rows[k].name, attribute)
    ensures var values2 := Insert(values1, AttributeValue(n, attribute));
            forall k1, k2 :: k1 in values2.rows && k2 in values2.rows && k1 !in values0.rows && k2 !in values0.rows
              && values2.rows[k1].name == values2.rows[k2].name
              ==> k1 == k2
  {
    var values2 := Insert(values1, AttributeValue(n, attribute));
    var v := values1.nextId;
    assert v !in values0.rows;
    NoValueBefore(values0, values1, attribute, prefix, n);
    forall k | k in values2.rows && k !in values0.rows
      ensures values2.rows[k].attribute == attribute && values2.rows[k].name in prefix + [n]
      ensures NoValue(values0, values2.rows[k].name, attribute)
    {
      if k != v {
        assert values2.rows[k] == values1.rows[k];
      }
    }
    forall k1, k2 | k1 in values2.rows && k2 in values2.rows && k1 !in values0.rows && k2 !in values0.rows
                    && values2.rows[k1].name == values2.rows[k2].name
      ensures k1 == k2
    {
      assert k1 != v ==> values2.rows[k1] == values1.rows[k1];
      assert k2 != v ==> values2.rows[k2] == values1.rows[k2];
    }
  }

  /** No value for `n` exists now, so none existed before the loop, and no
      value the loop created is called `n`. */
  lemma NoValueBefore(values0: Table<AttributeValue>, values1: Table<AttributeValue>, attribute: nat,
                      prefix: seq<string>, n: string)
    requires values0.Valid() && ValuesInv(values0, attribute, prefix, values1)
    requires Search(values1, ValueNamed(n, attribute)).None?
    ensures NoValue(values0, n, attribute)
    ensures forall k :: k in values1.rows && k !in values0.rows ==> values1.rows[k].name != n
  {
    forall k | k in values0.rows ensures !(values0.rows[k].name == n && values0.rows[k].attribute == attribute) {
      assert !ValueNamed(n, attribute)(values1.rows[k]);
    }
    forall k | k in values1.rows && k !in values0.rows ensures values1.rows[k].name != n {
      assert !ValueNamed(n, attribute)(values1.rows[k]);
    }
  }

  /** Adding values to a template that has a line for the attribute: that
      line gains exactly those values and nothing else changes. */
  lemma {:induction false} AddAllExisting(lines0: Table<AttributeLine>, template: nat, attribute: nat, vs: seq<nat>)
    requires lines0.Valid() && Search(lines0, LineFor(template, attribute)).Some?
    ensures var lines := AddAll(lines0, template, attribute, vs);
            var l := Search(lines0, LineFor(template, attribute)).value;
            && lines.rows.Keys == lines0.rows.Keys && lines.nextId == lines0.nextId
            && lines.rows[l] == lines0.rows[l].(values := lines0.rows[l].values + SetOf(vs))
            && (forall k :: k in lines0.rows && k != l ==> lines.rows[k] == lines0.rows[k])
            && Search(lines, LineFor(template, attribute)) == Some(l)
    decreases |vs|
  {
    var l := Search(lines0, LineFor(template, attribute)).value;
    if vs == [] {
      assert SetOf(vs) == {};
      assert lines0.rows[l].(values := lines0.rows[l].values + {}) == lines0.rows[l];
    } else {
      var ws := vs[..|vs| - 1];
      var v := vs[|vs| - 1];
      assert vs == ws + [v];
      assert SetOf(vs) == SetOf(ws) + {v};
      AddAllExisting(lines0, template, attribute, ws);
      var mid := AddAll(lines0, template, attribute, ws);
      SearchAfterUpdate(mid, l, mid.rows[l].(values := mid.rows[l].values + {v}), LineFor(template, attribute));
    }
  }

  /** Adding values to a template without a line for the attribute: one new
      line holding exactly those values, and nothing else changes. */
  lemma {:induction false} AddAllCreated(lines0: Table<AttributeLine>, template: nat, attribute: nat, vs: seq<nat>)
    requires lines0.Valid() && Search(lines0, LineFor(template, attribute)).None? && vs != []
    ensures var lines := AddAll(lines0, template, attribute, vs);
            && lines.rows.Keys == lines0.rows.Keys + {lines0.nextId} && lines.nextId == lines0.nextId + 1
            && lines.rows[lines0.nextId] == AttributeLine(template, attribute, SetOf(vs))
            && (forall k :: k in lines0.rows ==> lines.rows[k] == lines0.rows[k])
            && Search(lines, LineFor(template, attribute)) == Some(lines0.nextId)
    decreases |vs|
  {
    var ws := vs[..|vs| - 1];
    var v := vs[|vs| - 1];
    assert vs == ws + [v];
    var n := lines0.nextId;
    if ws == [] {
      assert SetOf(vs) == {v};
      SearchFindsInserted(lines0, AttributeLine(template, attribute, {v}), LineFor(template, attribute));
    } else {
      assert SetOf(vs) == SetOf(ws) + {v};
      AddAllCreated(lines0, template, attribute, ws);
      var mid := AddAll(lines0, template, attribute, ws);
      SearchAfterUpdate(mid, n, mid.rows[n].(values := mid.rows[n].values + {v}), LineFor(template, attribute));
    }
  }

  /** A configuration whose value has no variant yet ends up among the picked
      values. */
  lemma {:induction false} PickedHas(values: Table<AttributeValue>, template: nat, attribute: nat, names: seq<string>,
                                     variants: Variants, i: nat)
    requires values.Valid() && i < |names|
    requires Search(values, ValueNamed(names[i], attribute)).Some?
    requires (template, Search(values, ValueNamed(names[i], attribute)).value) !in variants
    ensures Search(values, ValueNamed(names[i], attribute)).value in Picked(values, template, attribute, names, variants)
    decreases |names|
  {
    if i < |names| - 1 {
      var prefix := names[..|names| - 1];
      assert prefix[i] == names[i];
      PickedHas(values, template, attribute, prefix, variants, i);
    }
  }

  /** Every picked value belongs to some configuration without a variant. */
  lemma {:induction false} PickedOnly(values: Table<AttributeValue>, template: nat, attribute: nat, names: seq<string>,
                                      variants: Variants, x: nat)
    requires values.Valid() && x in Picked(values, template, attribute, names, variants)
    ensures exists i :: 0 <= i < |names| && Search(values, ValueNamed(names[i], attribute)) == Some(x) && (template, x) !in variants
    decreases |names|
  {
    var prefix := names[..|names| - 1];
    var rest := Picked(values, template, attribute, prefix, variants);
    if x in rest {
      PickedOnly(values, template, attribute, prefix, variants, x);
      var i :| 0 <= i < |prefix| && Search(values, ValueNamed(prefix[i], attribute)) == Some(x) && (template, x) !in variants;
      assert names[i] == prefix[i];
    } else {
      assert Search(values, ValueNamed(names[|names| - 1], attribute)) == Some(x) && (template, x) !in variants;
    }
  }

  /** At most one line is created, only when the template had none for the
      attribute, and it is then the template's line for the attribute; an old
      line either stays as it was or is the template's line for the attribute
      and only gains values. */
  ghost predicate LineShape(lines0: Table<AttributeLine>, lines: Table<AttributeLine>, template: nat, attribute: nat)
    requires lines0.Valid() && lines.Valid()
  {
    && (lines.rows.Keys == lines0.rows.Keys
        || (&& Search(lines0, LineFor(template, attribute)).None?
            && lines.rows.Keys == lines0.rows.Keys + {lines0.nextId}
            && Search(lines, LineFor(template, attribute)) == Some(lines0.nextId)))
    && (forall k :: k in lines0.rows ==>
          k in lines.rows
          && (lines.rows[k] == lines0.rows[k]
              || (Search(lines, LineFor(template, attribute)) == Some(k)
                  && lines.rows[k].template == lines0.rows[k].template
                  && lines.rows[k].attribute == lines0.rows[k].attribute
                  && lines0.rows[k].values <= lines.rows[k].values)))
  }

  /** The template's line for the attribute holds the value of every
      configuration without a variant, and gains no other value. */
  ghost predicate LineContents(lines0: Table<AttributeLine>, lines: Table<AttributeLine>, template: nat, attribute: nat,
                               values: Table<AttributeValue>, names: seq<string>, variants: Variants)
    requires lines0.Valid() && lines.Valid() && values.Valid()
  {
    && (forall i :: (0 <= i < |names| && Search(values, ValueNamed(names[i], attribute)).Some?
                     && (template, Search(values, ValueNamed(names[i], attribute)).value) !in variants) ==>
          && Search(lines, LineFor(template, attribute)).Some?
          && Search(values, ValueNamed(names[i], attribute)).value in lines.rows[Search(lines, LineFor(template, attribute)).value].values)
    && (Search(lines, LineFor(template, attribute)).Some? ==>
          var l := Search(lines, LineFor(template, attribute)).value;
          forall x :: x in lines.rows[l].values ==>
            (l in lines0.rows && x in lines0.rows[l].values)
            || exists i :: 0 <= i < |names| && Search(values, ValueNamed(names[i], attribute)) == Some(x) && (template, x) !in variants)
  }

  /** Every configuration's value already has a variant of the template. */
  ghost predicate AllHaveVariants(values: Table<AttributeValue>, template: nat, attribute: nat, names: seq<string>,
                                  variants: Variants)
    requires values.Valid()
  {
    forall i :: 0 <= i < |names| && Search(values, ValueNamed(names[i], attribute)).Some? ==>
      (template, Search(values, ValueNamed(names[i], attribute)).value) in variants
  }

  /** With every configuration's value already a variant, nothing is picked. */
  lemma PickedNone(values: Table<AttributeValue>, template: nat, attribute: nat, names: seq<string>, variants: Variants)
    requires values.Valid() && AllHaveVariants(values, template, attribute, names, variants)
    ensures Picked(values, template, attribute, names, variants) == []
  {
    var vs := Picked(values, template, attribute, names, variants);
    if vs != [] {
      PickedOnly(values, template, attribute, names, variants, vs[0]);
    }
  }

  /** Adding values `vs` to the template's line: the shape above holds, and
      afterwards the line holds exactly its old values and `vs`. */
  lemma AddAllLines(lines0: Table<AttributeLine>, template: nat, attribute: nat, vs: seq<nat>)
    requires lines0.Valid()
    ensures vs == [] ==> AddAll(lines0, template, attribute, vs) == lines0
    ensures LineShape(lines0, AddAll(lines0, template, attribute, vs), template, attribute)
    ensures vs != [] ==>
              var lines := AddAll(lines0, template, attribute, vs);
              && Search(lines, LineFor(template, attribute)).Some?
              && var l := Search(lines, LineFor(template, attribute)).value;
                 forall x :: x in lines.rows[l].values <==> (l in lines0.rows && x in lines0.rows[l].values) || x in vs
  {
    var lines := AddAll(lines0, template, attribute, vs);
    if Search(lines0, LineFor(template, attribute)).Some? {
      AddAllExisting(lines0, template, attribute, vs);
    } else if vs != [] {
      AddAllCreated(lines0, template, attribute, vs);
    }
  }

  lemma ConfigureLines(values0: Table<AttributeValue>, lines0: Table<AttributeLine>, template: nat, attribute: nat,
                       names: seq<string>, variants: Variants)
    requires values0.Valid() && lines0.Valid()
    ensures var (values, lines) := Configure(values0, lines0, template, attribute, names, variants);
            && LineShape(lines0, lines, template, attribute)
            && LineContents(lines0, lines, template, attribute, values, names, variants)
            && (AllHaveVariants(values, template, attribute, names, variants) ==> lines == lines0)
  {
    ConfigureInv(values0, lines0, template, attribute, names, variants);
    var (values, lines) := Configure(values0, lines0, template, attribute, names, variants);
    var vs := Picked(values, template, attribute, names, variants);
    AddAllLines(lines0, template, attribute, vs);
    if AllHaveVariants(values, template, attribute, names, variants) {
      PickedNone(values, template, attribute, names, variants);
    }
    forall i | 0 <= i < |names| && Search(values, ValueNamed(names[i], attribute)).Some?
                 && (template, Search(values, ValueNamed(names[i], attribute)).value) !in variants
      ensures Search(values, ValueNamed(names[i], attribute)).value in vs
    {
      PickedHas(values, template, attribute, names, variants, i);
    }
    if vs != [] {
      var l := Search(lines, LineFor(template, attribute)).value;
      forall x | x in lines.rows[l].values && !(l in lines0.rows && x in lines0.rows[l].values)
        ensures exists i :: 0 <= i < |names| && Search(values, ValueNamed(names[i], attribute)) == Some(x) && (template, x) !in variants
      {
        PickedOnly(values, template, attribute, names, variants, x);
      }
    }
  }

  /** The configuration values of `create_or_update_from_fusion`: every
      configuration name has a value of the `Configuration` attribute, and at
      most one is created per name, only when none existed. */
  lemma ConfigurationValues(c: Catalog, data: FusionData, variants: Variants)
    requires c.Valid() && HasConfigurations(data)
    ensures var c2 := CreateOrUpdateFromFusion(c, data, variants).0;
            var a := ConfigurationAttribute(c.attributes).1;
            && c2.attributes.rows[a].name == ConfigurationName
            && ValuesInv(c.values, a, data.configurations.value, c2.values)
  {
    var (c1, t) := UpsertTemplate(c, data);
    var a := ConfigurationAttribute(c1.attributes).1;
    ConfigureInv(c.values, c.lines, t, a, data.configurations.value, variants);
  }

  /** The configuration line of `create_or_update_from_fusion`: the
      template's line for the `Configuration` attribute holds the value of
      every configuration without a variant and gains nothing else; at most
      one line is created, only when the template had none, and it is the
      template's line for the attribute; no other line changes; and when
      every configuration already has a variant, no line changes at all. */
  lemma ConfigurationLine(c: Catalog, data: FusionData, variants: Variants)
    requires c.Valid() && HasConfigurations(data)
    ensures var (c2, t) := CreateOrUpdateFromFusion(c, data, variants);
            var a := ConfigurationAttribute(c.attributes).1;
            && LineShape(c.lines, c2.lines, t, a)
            && LineContents(c.lines, c2.lines, t, a, c2.values, data.configurations.value, variants)
            && (AllHaveVariants(c2.values, t, a, data.configurations.value, variants) ==> c2.lines == c.lines)
  {
    var (c1, t) := UpsertTemplate(c, data);
    var a := ConfigurationAttribute(c1.attributes).1;
    ConfigureLines(c.values, c.lines, t, a, data.configurations.value, variants);
  }

  /** A template the sync creates has no attribute line yet, since every
      stored line belongs to a stored template, and no variant either. So it
      gets exactly one new line, for the `Configuration` attribute, holding
      the value of every configuration, and no old line changes. */
  lemma NewTemplateLine(c: Catalog, data: FusionData, variants: Variants)
    requires c.Valid() && HasConfigurations(data) && VariantsIn(c, variants)
    requires Search(c.templates, WithUuid(data.fusionUuid)).None?
    ensures var (c2, t) := CreateOrUpdateFromFusion(c, data, variants);
            var a := ConfigurationAttribute(c.attributes).1;
            var names := data.configurations.value;
            var n := c.lines.nextId;
            && Search(c.lines, LineFor(t, a)).None?
            && c2.lines.rows.Keys == c.lines.rows.Keys + {n}
            && c2.lines.rows[n].template == t && c2.lines.rows[n].attribute == a
            && (forall x :: x in c2.lines.rows[n].values <==>
                  exists i :: 0 <= i < |names| && Search(c2.values, ValueNamed(names[i], a)) == Some(x))
            && (forall k :: k in c.lines.rows ==> c2.lines.rows[k] == c.lines.rows[k])
  {
    var (c2, t) := CreateOrUpdateFromFusion(c, data, variants);
    var a := ConfigurationAttribute(c.attributes).1;
    var names := data.configurations.value;
    ConfigurationValues(c, data, variants);
    ConfigurationLine(c, data, variants);
    assert t == c.templates.nextId;
    FreshTemplateLine(c.lines, c2.lines, c2.values, t, a, names, variants);
  }

  /** The table-level part of `NewTemplateLine`: with no old line for the
      template and no variant of it, the loop's line shape and contents pin
      down one new line holding every configuration's value. */
  lemma FreshTemplateLine(lines0: Table<AttributeLine>, lines: Table<AttributeLine>, values: Table<AttributeValue>,
                          t: nat, a: nat, names: seq<string>, variants: Variants)
    requires lines0.Valid() && lines.Valid() && values.Valid() && names != []
    requires LineShape(lines0, lines, t, a) && LineContents(lines0, lines, t, a, values, names, variants)
    requires forall k :: k in lines0.rows ==> lines0.rows[k].template != t
    requires forall p :: p in variants ==> p.0 != t
    requires forall i :: 0 <= i < |names| ==> Search(values, ValueNamed(names[i], a)).Some?
    ensures Search(lines0, LineFor(t, a)).None?
    ensures lines.rows.Keys == lines0.rows.Keys + {lines0.nextId}
    ensures lines.rows[lines0.nextId].template == t && lines.rows[lines0.nextId].attribute == a
    ensures forall x :: x in lines.rows[lines0.nextId].values <==>
              exists i :: 0 <= i < |names| && Search(values, ValueNamed(names[i], a)) == Some(x)
    ensures forall k :: k in lines0.rows ==> lines.rows[k] == lines0.rows[k]
  {
    var n := lines0.nextId;
    var v := Search(values, ValueNamed(names[0], a)).value;
    assert (t, v) !in variants;
    var l := Search(lines, LineFor(t, a)).value;
    assert LineFor(t, a)(lines.rows[l]);
    assert l !in lines0.rows;
    forall x | exists i :: 0 <= i < |names| && Search(values, ValueNamed(names[i], a)) == Some(x)
      ensures x in lines.rows[n].values
    {
      var i :| 0 <= i < |names| && Search(values, ValueNamed(names[i], a)) == Some(x);
      assert (t, x) !in variants;
    }
  }

  /** A code has a single digit exactly for a counter below ten. */
  lemma SequenceCodeLength(n: nat)
    ensures n < 10 <==> |SequenceCode(n)| == 1
  {
    if n >= 10 {
      assert |SequenceCode(n)| == |SequenceCode(n / 10)| + 1;
    }
  }

  /** The digit of `d` stands for `d`. */
  lemma DigitValue(d: nat)
    requires d < 10
    ensures Digit(d) as int - '0' as int == d
  {
  }

  /** Two counters above ten with the same last digit and the same leading
      digits are equal. */
  lemma SameDigits(n: nat, m: nat)
    requires Digit(n % 10) == Digit(m % 10) && n / 10 == m / 10
    ensures n == m
  {
    DigitValue(n % 10);
    DigitValue(m % 10);
  }

  /** Different counter values give different codes, so every code the
      sequence hands out is new. */
  lemma {:induction false} SequenceCodeInjective(n: nat, m: nat)
    ensures SequenceCode(n) == SequenceCode(m) ==> n == m
    decreases n
  {
    var cn, cm := SequenceCode(n), SequenceCode(m);
    if cn == cm {
      SequenceCodeLength(n);
      SequenceCodeLength(m);
      if n < 10 {
        assert m < 10;
        assert Digit(n) == cn[0] == Digit(m);
        DigitValue(n);
        DigitValue(m);
      } else {
        assert m >= 10;
        assert cn[..|cn| - 1] == SequenceCode(n / 10) && cm[..|cm| - 1] == SequenceCode(m / 10);
        assert Digit(n % 10) == cn[|cn| - 1] == Digit(m % 10);
        SequenceCodeInjective(n / 10, m / 10);
        SameDigits(n, m);
      }
    }
  }

  /** Once a template has a code, later syncs of the same component never
      draw from the sequence again and leave the code as it is. The code is
      read back as stored, which holds for a template with a single variant. */
  lemma CodeDrawnOnce(c: Catalog, data: FusionData, data': FusionData)
    requires c.Valid() && data'.fusionUuid == data.fusionUuid
    ensures var (c1, t) := UpsertTemplate(c, data);
            var (c2, t2) := UpsertTemplate(c1, data');
            && t2 == t && c2.nextCode == c1.nextCode
            && c2.templates.rows[t].defaultCode == c1.templates.rows[t].defaultCode
  {
    var (c1, t) := UpsertTemplate(c, data);
    assert WithUuid(data.fusionUuid)(c1.templates.rows[t]);
    if Search(c.templates, WithUuid(data.fusionUuid)).Some? {
      assert forall k :: k in c1.templates.rows && k < t ==> c1.templates.rows[k] == c.templates.rows[k];
    } else {
      assert forall k :: k in c1.templates.rows && k != t ==> !WithUuid(data.fusionUuid)(c1.templates.rows[k]);
    }
    assert Search(c1.templates, WithUuid(data'.fusionUuid)) == Some(t);
  }

  /** The `Configuration` attribute is created at most once: when none
      existed, the created one is then the only attribute of that name, and
      a later call finds it again and creates nothing. */
  lemma ConfigurationAttributeOnce(attributes: Table<Attribute>)
    requires attributes.Valid()
    ensures var (attributes', a) := ConfigurationAttribute(attributes);
            && ConfigurationAttribute(attributes') == (attributes', a)
            && (Search(attributes, AttributeNamed(ConfigurationName)).None? ==>
                  forall k :: k in attributes'.rows && attributes'.rows[k].name == ConfigurationName ==> k == a)
  {
    var (attributes', a) := ConfigurationAttribute(attributes);
    if Search(attributes, AttributeNamed(ConfigurationName)).None? {
      assert AttributeNamed(ConfigurationName)(attributes'.rows[a]);
      assert forall k :: k in attributes'.rows && k != a ==> k in attributes.rows && attributes'.rows[k] == attributes.rows[k];
      assert forall k :: k in attributes'.rows && k != a ==> !AttributeNamed(ConfigurationName)(attributes'.rows[k]);
      assert Search(attributes', AttributeNamed(ConfigurationName)) == Some(a);
    }
  }
}

=== FILE: fusion_user.dfy ===
/**
 Fusion 360 user identities (`fusion.user`) and their upsert keyed by the
 Fusion user id.

 A user record carries the Fusion id, which the table keeps unique, and an
 optional link to a contact (`res.partner`). Contacts are a second table that
 the sync only reads, to link a new user to a contact by e-mail.
 */
module FusionUser {
  import opened Wrappers
  import opened Tables

  datatype User = User(
    name: string,
    displayName: string,
    email: Option<string>,
    fusionId: string,
    partner: Option<nat>,
    active: bool)

  datatype Partner = Partner(email: Option<string>, active: bool)

  /** The `vals` dictionary: `None` stands for a key that is not there. */
  datatype UserVals = UserVals(
    fusionId: Option<string>,
    name: Option<string>,
    displayName: Option<string>,
    email: Option<string>,
    partner: Option<nat>,
    active: Option<bool>)

  /** The return value: `False`, or the id of the synced record. */
  datatype Outcome = NotSynced | Synced(id: nat)

  /** What makes the `INSERT` or `UPDATE` fail: a required column left empty,
      the `UNIQUE(fusion_id)` constraint, or a `partner_id` naming no stored
      contact (the column is a foreign key). */
  datatype UserError =
    | MissingRequired(field: string)
    | DuplicateFusionId(fusionId: string)
    | MissingPartner(partner: nat)

  /** The `fusion_id_unique` SQL constraint. */
  ghost predicate UniqueFusionIds(users: map<nat, User>) {
    forall k1, k2 :: k1 in users && k2 in users && k1 != k2 ==> users[k1].fusionId != users[k2].fusionId
  }

  /** ASCII case folding, standing in for the database's `ILIKE`. */
  function Lower(c: char): (r: char)
    ensures 'A' <= c <= 'Z' ==> r as int == c as int + 32
    ensures !('A' <= c <= 'Z') ==> r == c
    ensures !('A' <= r <= 'Z')
  {
    if 'A' <= c <= 'Z' then (c as int + 32) as char else c
  }

  function LowerString(s: string): (r: string)
    ensures |r| == |s| && forall i :: 0 <= i < |s| ==> r[i] == Lower(s[i])
  {
    if s == [] then [] else [Lower(s[0])] + LowerString(s[1..])
  }

  /** `('email', '=ilike', email)`. */
  predicate EmailLike(stored: Option<string>, email: string) {
    stored.Some? && LowerString(stored.value) == LowerString(email)
  }

  function WithFusionId(fusionId: string): User -> bool {
    (u: User) => u.fusionId == fusionId
  }

  /** The domain `search` really runs on a model with an `active` field:
      archived records are left out. */
  function ActiveWithFusionId(fusionId: string): User -> bool {
    (u: User) => u.active && u.fusionId == fusionId
  }

  /** The contact domain: e-mail matches, archived or not. */
  function PartnerWithEmail(email: string): Partner -> bool {
    (p: Partner) => EmailLike(p.email, email)
  }

  /** A `partner_id` value the foreign key accepts: none, or a stored contact. */
  predicate KnownPartner(partners: Table<Partner>, p: Option<nat>) {
    p.None? || p.value in partners.rows
  }

  /** `vals.get('fusion_id')` is falsy. */
  predicate NoFusionId(vals: UserVals) {
    vals.fusionId.None? || vals.fusionId.value == ""
  }

  /** `record.write(vals)`: every key present in `vals` overwrites its field. */
  function Write(u: User, vals: UserVals): User {
    User(vals.name.GetOr(u.name), vals.displayName.GetOr(u.displayName),
         if vals.email.Some? then vals.email else u.email,
         vals.fusionId.GetOr(u.fusionId),
         if vals.partner.Some? then vals.partner else u.partner,
         vals.active.GetOr(u.active))
  }

  /** The empty dictionary. */
  const NoVals: UserVals := UserVals(None, None, None, None, None, None)

  /** A dictionary that sets every field. */
  const AllKeys: UserVals := UserVals(Some(""), Some(""), Some(""), Some(""), Some(0), Some(true))

  /** Every key present in `a` is present in `b`. */
  predicate Covers(b: UserVals, a: UserVals) {
    && (a.fusionId.Some? ==> b.fusionId.Some?) && (a.name.Some? ==> b.name.Some?)
    && (a.displayName.Some? ==> b.displayName.Some?) && (a.email.Some? ==> b.email.Some?)
    && (a.partner.Some? ==> b.partner.Some?) && (a.active.Some? ==> b.active.Some?)
  }

  /** Writing nothing leaves the record as it is, and writing the same values
      again changes nothing. */
  lemma WriteIdempotent(u: User, vals: UserVals)
    ensures Write(u, NoVals) == u
    ensures Write(Write(u, vals), vals) == Write(u, vals)
  {
  }

  /** A later write wins: when it sets every key the earlier one set, the
      earlier write leaves no trace, and a write that sets every key does not
      depend on the record at all. */
  lemma WriteLastWins(u: User, u': User, a: UserVals, b: UserVals)
    ensures Covers(b, a) ==> Write(Write(u, a), b) == Write(u, b)
    ensures Covers(b, AllKeys) ==> Write(u, b) == Write(u', b)
  {
  }

  /** The contact a new user is linked to: looked up only when an e-mail is
      given, among active and archived contacts alike. */
  function PartnerFor(partners: Table<Partner>, vals: UserVals): (r: Option<nat>)
    requires partners.Valid()
    ensures (vals.email.None? || vals.email.value == "") ==> r.None?
    ensures r.Some? ==> r.value in partners.rows && EmailLike(partners.rows[r.value].email, vals.email.value)
    ensures vals.email.Some? && vals.email.value != "" && r.None? ==>
              forall k :: k in partners.rows ==> !EmailLike(partners.rows[k].email, vals.email.value)
  {
    if vals.email.None? || vals.email.value == "" then None
    else Search(partners, PartnerWithEmail(vals.email.value))
  }

  /** An e-mail is given and some stored contact, archived or not, has it up
      to case. */
  ghost predicate ContactHasEmail(partners: Table<Partner>, vals: UserVals) {
    && vals.email.Some? && vals.email.value != ""
    && exists k :: k in partners.rows && EmailLike(partners.rows[k].email, vals.email.value)
  }

  /** `create(vals)` for a Fusion id not yet in the table. */
  function NewUser(partners: Table<Partner>, vals: UserVals, fusionId: string): (r: Result<User, UserError>)
    requires partners.Valid()
    ensures r.Success? <==>
              vals.name.Some? && vals.displayName.Some? && (ContactHasEmail(partners, vals) || KnownPartner(partners, vals.partner))
    ensures r.Success? ==> r.value.fusionId == fusionId && r.value.active == vals.active.GetOr(true)
    ensures r.Success? ==> r.value.email == vals.email && KnownPartner(partners, r.value.partner)
    ensures r.Success? ==> r.value.name == vals.name.value && r.value.displayName == vals.displayName.value
    // a contact whose e-mail matches wins over `vals`' own partner
    ensures r.Success? && ContactHasEmail(partners, vals) ==>
              r.value.partner.Some? && r.value.partner.value in partners.rows
              && EmailLike(partners.rows[r.value.partner.value].email, vals.email.value)
    ensures r.Success? && !ContactHasEmail(partners, vals) ==> r.value.partner == vals.partner
  {
    if vals.name.None? then Failure(MissingRequired("name"))
    else if vals.displayName.None? then Failure(MissingRequired("display_name"))
    else
      var partner := match PartnerFor(partners, vals)
        case Some(p) => Some(p)
        case None => vals.partner;
      if !KnownPartner(partners, partner) then Failure(MissingPartner(partner.value))
      else Success(User(vals.name.value, vals.displayName.value, vals.email, fusionId, partner, vals.active.GetOr(true)))
  }

  /** `existing.write(vals)`: the update, rejected by the foreign key when
      `partner_id` names no stored contact. */
  function UpdateUser(users: Table<User>, partners: Table<Partner>, k: nat, vals: UserVals)
    : Result<(Table<User>, Outcome), UserError>
    requires users.Valid() && k in users.rows
  {
    if !KnownPartner(partners, vals.partner) then Failure(MissingPartner(vals.partner.value))
    else Success((Update(users, k, Write(users.rows[k], vals)), Synced(k)))
  }

  /** `FusionUser.sync_from_fusion` as written: the lookup skips archived
      users, so a Fusion id held by an archived user reaches `create` and the
      unique constraint rejects it. */
  function SyncFromFusionAsWritten(users: Table<User>, partners: Table<Partner>, vals: UserVals)
    : (r: Result<(Table<User>, Outcome), UserError>)
    requires users.Valid() && partners.Valid()
    ensures NoFusionId(vals) ==> r == Success((users, NotSynced))
    ensures !NoFusionId(vals) && r.Success? ==> r.value.0.Valid() && r.value.1.Synced?
    ensures !NoFusionId(vals) && Search(users, ActiveWithFusionId(vals.fusionId.value)).None? ==>
              (Search(users, WithFusionId(vals.fusionId.value)).Some? ==> r.Failure?)
  {
    if NoFusionId(vals) then Success((users, NotSynced))
    else
      var fusionId := vals.fusionId.value;
      match Search(users, ActiveWithFusionId(fusionId))
      case Some(k) => UpdateUser(users, partners, k, vals)
      case None =>
        match NewUser(partners, vals, fusionId)
        case Failure(e) => Failure(e)
        case Success(u) =>
          if Search(users, WithFusionId(fusionId)).Some? then Failure(DuplicateFusionId(fusionId))
          else Success((Insert(users, u), Synced(users.nextId)))
  }

  /** `FusionUser.sync_from_fusion` with the lookup extended to archived users,
      so that every user already holding the Fusion id is updated. */
  function SyncFromFusion(users: Table<User>, partners: Table<Partner>, vals: UserVals)
    : (r: Result<(Table<User>, Outcome), UserError>)
    requires users.Valid() && partners.Valid()
    ensures NoFusionId(vals) <==> r == Success((users, NotSynced))
    ensures r.Success? ==> r.value.0.Valid()
    // an existing user is updated in place and nothing is created, unless the
    // `partner_id` written names no contact
    ensures !NoFusionId(vals) && Search(users, WithFusionId(vals.fusionId.value)).Some? ==>
              var k := Search(users, WithFusionId(vals.fusionId.value)).value;
              && (r.Success? <==> KnownPartner(partners, vals.partner))
              && (r.Failure? ==> r.error == MissingPartner(vals.partner.value))
              && (r.Success? ==>
                    && r.value.1 == Synced(k)
                    && r.value.0.rows.Keys == users.rows.Keys && r.value.0.nextId == users.nextId
                    && r.value.0.rows[k] == Write(users.rows[k], vals)
                    && (forall j :: j in users.rows && j != k ==> r.value.0.rows[j] == users.rows[j]))
    // otherwise exactly one user is created, or creation fails
    ensures !NoFusionId(vals) && Search(users, WithFusionId(vals.fusionId.value)).None? ==>
              && (r.Success? <==>
                    vals.name.Some? && vals.displayName.Some? && (ContactHasEmail(partners, vals) || KnownPartner(partners, vals.partner)))
              && (r.Success? ==>
                    && r.value.1 == Synced(users.nextId) && users.nextId !in users.rows
                    && r.value.0.rows.Keys == users.rows.Keys + {users.nextId}
                    && r.value.0.rows[users.nextId] == NewUser(partners, vals, vals.fusionId.value).value
                    && (forall j :: j in users.rows ==> r.value.0.rows[j] == users.rows[j]))
  {
    if NoFusionId(vals) then Success((users, NotSynced))
    else
      var fusionId := vals.fusionId.value;
      match Search(users, WithFusionId(fusionId))
      case Some(k) => UpdateUser(users, partners, k, vals)
      case None =>
        match NewUser(partners, vals, fusionId)
        case Failure(e) => Failure(e)
        case Success(u) => Success((Insert(users, u), Synced(users.nextId)))
  }

  /** Every sync keeps the Fusion ids unique: an update rewrites the id with
      the one it was found by, and a create only happens for an id no user
      holds. */
  lemma SyncKeepsFusionIdsUnique(users: Table<User>, partners: Table<Partner>, vals: UserVals)
    requires users.Valid() && partners.Valid() && UniqueFusionIds(users.rows)
    requires SyncFromFusion(users, partners, vals).Success?
    ensures UniqueFusionIds(SyncFromFusion(users, partners, vals).value.0.rows)
  {
    if !NoFusionId(vals) {
      var fusionId := vals.fusionId.value;
      var rows' := SyncFromFusion(users, partners, vals).value.0.rows;
      match Search(users, WithFusionId(fusionId))
      case Some(k) =>
        assert rows'[k].fusionId == users.rows[k].fusionId;
      case None =>
        assert forall j :: j in users.rows ==> users.rows[j].fusionId != fusionId;
        assert rows'[users.nextId].fusionId == fusionId;
    }
  }

  /** The update path never searches the contacts by e-mail: with a user
      already holding the Fusion id, the contact table matters only through
      the foreign-key check on `partner_id`. */
  lemma UpdateIgnoresPartners(users: Table<User>, partners: Table<Partner>, others: Table<Partner>, vals: UserVals)
    requires users.Valid() && partners.Valid() && others.Valid()
    requires !NoFusionId(vals) && Search(users, WithFusionId(vals.fusionId.value)).Some?
    ensures KnownPartner(partners, vals.partner) == KnownPartner(others, vals.partner) ==>
              SyncFromFusion(users, partners, vals) == SyncFromFusion(users, others, vals)
  {
  }

  /** The two lookups differ only on archived users: when no archived user
      holds the Fusion id, the code as written and the corrected sync agree. */
  lemma AsWrittenAgreesWithoutArchivedHolder(users: Table<User>, partners: Table<Partner>, vals: UserVals)
    requires users.Valid() && partners.Valid()
    requires forall k :: k in users.rows && users.rows[k].fusionId == vals.fusionId.GetOr("") ==> users.rows[k].active
    ensures SyncFromFusionAsWritten(users, partners, vals) == SyncFromFusion(users, partners, vals)
  {
    if !NoFusionId(vals) {
      var fusionId := vals.fusionId.value;
      assert forall k :: k in users.rows ==> (ActiveWithFusionId(fusionId)(users.rows[k]) <==> WithFusionId(fusionId)(users.rows[k]));
      var a := Search(users, ActiveWithFusionId(fusionId));
      var w := Search(users, WithFusionId(fusionId));
      if a.Some? {
        assert w.Some? && w.value <= a.value && a.value <= w.value;
      }
    }
  }

  /** Finding: a Fusion id held only by an archived user makes the code as
      written fail, while the corrected sync updates that user (unless the
      `partner_id` written names no contact, which fails either way). */
  lemma ArchivedHolderRejectedAsWritten(users: Table<User>, partners: Table<Partner>, vals: UserVals, k: nat)
    requires users.Valid() && partners.Valid() && UniqueFusionIds(users.rows)
    requires !NoFusionId(vals) && k in users.rows && users.rows[k].fusionId == vals.fusionId.value
    requires !users.rows[k].active
    ensures SyncFromFusionAsWritten(users, partners, vals).Failure?
    ensures SyncFromFusion(users, partners, vals).Success? <==> KnownPartner(partners, vals.partner)
    ensures SyncFromFusion(users, partners, vals).Success? ==> SyncFromFusion(users, partners, vals).value.1 == Synced(k)
  {
    var fusionId := vals.fusionId.value;
    assert WithFusionId(fusionId)(users.rows[k]);
    assert forall j :: j in users.rows && j != k ==> !WithFusionId(fusionId)(users.rows[j]);
    assert forall j :: j in users.rows ==> !ActiveWithFusionId(fusionId)(users.rows[j]);
  }

  /** The concrete case: one archived user `F-1` and a sync of `F-1` with
      full values. */
  lemma ArchivedHolderExample()
    ensures var users := Table(map[0 := User("ana", "Ana", None, "F-1", None, false)], 1);
            var vals := UserVals(Some("F-1"), Some("ana"), Some("Ana"), None, None, None);
            && SyncFromFusionAsWritten(users, Table(map[], 0), vals) == Failure(DuplicateFusionId("F-1"))
            && SyncFromFusion(users, Table(map[], 0), vals)
               == Success((Table(map[0 := User("ana", "Ana", None, "F-1", None, false)], 1), Synced(0)))
  {
    var users := Table(map[0 := User("ana", "Ana", None, "F-1", None, false)], 1);
    var vals := UserVals(Some("F-1"), Some("ana"), Some("Ana"), None, None, None);
    assert !NoFusionId(vals);
    assert forall k :: k in users.rows ==> k == 0;
    assert !ActiveWithFusionId("F-1")(users.rows[0]);
    assert Search(users, ActiveWithFusionId("F-1")).None?;
    assert WithFusionId("F-1")(users.rows[0]);
    assert Search(users, WithFusionId("F-1")) == Some(0);
    assert Write(users.rows[0], vals) == users.rows[0];
    assert users.rows[0 := users.rows[0]] == users.rows;
  }

  /** Syncing the same values twice leaves the table as the first sync left
      it (for values that do not name a contact themselves). */
  lemma SyncIdempotent(users: Table<User>, partners: Table<Partner>, vals: UserVals)
    requires users.Valid() && partners.Valid() && vals.partner.None?
    requires SyncFromFusion(users, partners, vals).Success?
    ensures var (users', _) := SyncFromFusion(users, partners, vals).value;
            SyncFromFusion(users', partners, vals) == SyncFromFusion(users, partners, vals)
  {
    var (users', out) := SyncFromFusion(users, partners, vals).value;
    if !NoFusionId(vals) {
      var fusionId := vals.fusionId.value;
      var k := out.id;
      if Search(users, WithFusionId(fusionId)).Some? {
        SearchAfterUpdate(users, k, Write(users.rows[k], vals), WithFusionId(fusionId));
      } else {
        SearchFindsInserted(users, NewUser(partners, vals, fusionId).value, WithFusionId(fusionId));
      }
      assert Write(users'.rows[k], vals) == users'.rows[k];
      assert users'.rows[k := users'.rows[k]] == users'.rows;
    }
  }
}

=== FILE: mrp_bom.dfy ===
/**
 Bills of materials synchronised from Fusion 360 (`mrp.bom` extension).

 The store holds the ids of the stored product templates, the stored product
 variants with their templates, and two tables: the BOM headers and the BOM
 component lines; a line belongs to the BOM whose id it carries in `bom`, as
 `mrp.bom.line.bom_id` does. Which product a Fusion component stands for is decided
 by a resolver supplied by the caller (`product.template.get_product_variant_by_uuid`,
 whose code is not part of this model).
 */
module MrpBom {
  import opened Wrappers
  import opened Tables

  datatype BomType = Normal | Phantom

  /** One x2many command passed through to `bom_line_ids`; its payload is not
      interpreted by the model. */
  datatype LineCommand = LineCommand(payload: string)

  /** An `mrp.bom` header. `lineCommands` is the command list last written
      through the product-keyed upsert. */
  datatype BomRecord = BomRecord(
    productTmpl: nat,
    product: Option<nat>,
    bomType: BomType,
    lineCommands: seq<LineCommand>)

  /** An `mrp.bom.line`: the BOM it belongs to, its product and its quantity. */
  datatype BomLine = BomLine(bom: nat, product: nat, qty: int)

  /** `templates` are the stored `product.template` ids and `products` maps
      each stored `product.product` id to its template. The foreign keys hold:
      a variant's template, a BOM's template and product, and a line's BOM
      are all stored. */
  datatype BomStore = BomStore(
    templates: set<nat>,
    products: map<nat, nat>,
    boms: Table<BomRecord>,
    lines: Table<BomLine>)
  {
    ghost predicate Valid() {
      && boms.Valid() && lines.Valid()
      && (forall p :: p in products ==> products[p] in templates)
      && (forall k :: k in boms.rows ==> boms.rows[k].productTmpl in templates)
      && (forall k :: k in boms.rows && boms.rows[k].product.Some? ==> boms.rows[k].product.value in products)
      && (forall k :: k in lines.rows ==> lines.rows[k].bom in boms.rows)
    }
  }

  /** One entry of `structure['components']`; every key may be missing. The
      `name` is read only for logging, but reading it still raises when it is
      missing. `configuration_id` may be present with the value `None`. */
  datatype Component = Component(
    name: Field<string>,
    fusionUuid: Field<string>,
    configurationId: Field<Option<string>>,
    quantity: Field<int>)

  /** `get_product_variant_by_uuid(fusion_uuid, configuration_id)`. */
  type Resolver = (string, Option<string>) -> Option<nat>

  /** Why a sync raised; the source reports every one of them as a single
      `UserError`. */
  datatype BomError =
    | MissingKey(key: string)
    | ExpectedSingleton(product: nat)
    | MissingProduct(product: nat)
    | MissingTemplate(tmpl: nat)

  function ForTemplate(tmpl: nat): BomRecord -> bool {
    (b: BomRecord) => b.productTmpl == tmpl
  }

  function ForProduct(product: nat): BomRecord -> bool {
    (b: BomRecord) => b.product == Some(product)
  }

  /** The domain of `bom.bom_line_ids.filtered(lambda l: l.product_id.id == product.id)`. */
  function LineOf(bom: nat, product: nat): BomLine -> bool {
    (l: BomLine) => l.bom == bom && l.product == product
  }

  /** The product a component resolves to; `None` when it resolves to nothing
      (or when a key the lookup needs is missing, in which case the sync fails
      anyway). */
  function ProductOf(c: Component, resolve: Resolver): Option<nat> {
    if c.fusionUuid.Present? && c.configurationId.Present?
    then resolve(c.fusionUuid.value, c.configurationId.value)
    else None
  }

  /** Find the BOM of a product template, creating a `'normal'` one when there
      is none. */
  function FindOrCreateForTemplate(boms: Table<BomRecord>, tmpl: nat): (r: (Table<BomRecord>, nat))
    requires boms.Valid()
    ensures r.0.Valid() && r.1 in r.0.rows && r.0.rows[r.1].productTmpl == tmpl
    ensures Search(boms, ForTemplate(tmpl)).Some? ==>
              r.0 == boms && r.1 == Search(boms, ForTemplate(tmpl)).value
    // the created BOM has only the template and type `'normal'`: no product, no line commands
    ensures Search(boms, ForTemplate(tmpl)).None? ==>
              && r.1 == boms.nextId && r.1 !in boms.rows
              && r.0.rows.Keys == boms.rows.Keys + {r.1}
              && r.0.rows[r.1] == BomRecord(tmpl, None, Normal, [])
              && (forall k :: k in boms.rows ==> r.0.rows[k] == boms.rows[k])
  {
    match Search(boms, ForTemplate(tmpl))
    case Some(b) => (boms, b)
    case None => (Insert(boms, BomRecord(tmpl, None, Normal, [])), boms.nextId)
  }

  /** The state of the loop over the components: the line table and the
      `current_lines` dictionary (line id to "matched by some component"). */
  datatype LoopState = LoopState(lines: Table<BomLine>, keep: map<nat, bool>)

  /** The `current_lines` snapshot: every line of BOM `b`, not yet matched. */
  function InitialKeep(lines: Table<BomLine>, b: nat): map<nat, bool> {
    map k | k in lines.rows && lines.rows[k].bom == b :: false
  }

  /** Every line of `rows` is either a line of BOM `b` or a line of `rows0`
      still in the BOM it was in. */
  ghost predicate LinesStayIn(rows0: map<nat, BomLine>, b: nat, rows: map<nat, BomLine>) {
    forall k :: k in rows ==> rows[k].bom == b || (k in rows0 && rows[k].bom == rows0[k].bom)
  }

  /** Process one component for BOM `b`. */
  function Step(b: nat, st: LoopState, c: Component, resolve: Resolver): (r: Result<LoopState, BomError>)
    requires st.lines.Valid()
    ensures r.Success? ==> r.value.lines.Valid() && st.lines.nextId <= r.value.lines.nextId
    ensures r.Success? ==> LinesStayIn(st.lines.rows, b, r.value.lines.rows)
  {
    if c.name.Absent? then Failure(MissingKey("name"))
    else if c.fusionUuid.Absent? then Failure(MissingKey("fusion_uuid"))
    else if c.configurationId.Absent? then Failure(MissingKey("configuration_id"))
    else
      match resolve(c.fusionUuid.value, c.configurationId.value)
      case None => Success(st)
      case Some(q) =>
        if c.quantity.Absent? then Failure(MissingKey("quantity"))
        else
          match Search(st.lines, LineOf(b, q))
          case None =>
            Success(st.(lines := Insert(st.lines, BomLine(b, q, c.quantity.value))))
          case Some(k) =>
            if FindFrom(st.lines.rows, LineOf(b, q), k + 1, st.lines.nextId).Some? then
              Failure(ExpectedSingleton(q))
            else
              var line := st.lines.rows[k];
              Success(LoopState(Update(st.lines, k, line.(qty := c.quantity.value)), st.keep[k := true]))
  }

  /** The loop over `structure['components']`, stopping at the first error. */
  function Run(b: nat, st: LoopState, comps: seq<Component>, resolve: Resolver): (r: Result<LoopState, BomError>)
    requires st.lines.Valid()
    ensures r.Success? ==> r.value.lines.Valid() && st.lines.nextId <= r.value.lines.nextId
    ensures r.Success? ==> LinesStayIn(st.lines.rows, b, r.value.lines.rows)
    decreases |comps|
  {
    if comps == [] then Success(st)
    else
      match Run(b, st, comps[..|comps| - 1], resolve)
      case Failure(e) => Failure(e)
      case Success(st') => Step(b, st', comps[|comps| - 1], resolve)
  }

  /** `MrpBom.sync_from_fusion`: reconcile the lines of the template's BOM with
      the components, returning the new store and the BOM id. Creating a BOM
      for a template id that is not stored violates `product_tmpl_id`'s
      foreign key. */
  function SyncFromFusion(s: BomStore, tmpl: nat, components: Field<seq<Component>>, resolve: Resolver)
    : (r: Result<(BomStore, nat), BomError>)
    requires s.Valid()
    ensures r.Success? ==> r.value.0.Valid() && tmpl in s.templates
    ensures r.Success? ==> r.value.0.templates == s.templates && r.value.0.products == s.products
    ensures r.Success? ==> r.value.1 in r.value.0.boms.rows && r.value.0.boms.rows[r.value.1].productTmpl == tmpl
    ensures r.Success? ==> (r.value.0.boms, r.value.1) == FindOrCreateForTemplate(s.boms, tmpl)
    ensures tmpl !in s.templates ==> r == Failure(MissingTemplate(tmpl))
    ensures tmpl in s.templates && components.Absent? ==> r == Failure(MissingKey("components"))
  {
    if Search(s.boms, ForTemplate(tmpl)).None? && tmpl !in s.templates then Failure(MissingTemplate(tmpl))
    else
      var (boms, b) := FindOrCreateForTemplate(s.boms, tmpl);
      if components.Absent? then Failure(MissingKey("components"))
      else
        match Run(b, LoopState(s.lines, InitialKeep(s.lines, b)), components.value, resolve)
        case Failure(e) => Failure(e)
        case Success(st) =>
          var obsolete := set k | k in st.keep && !st.keep[k];
          Success((s.(boms := boms, lines := Table(st.lines.rows - obsolete, st.lines.nextId)), b))
  }

  /** `MrpBom.create_or_update_from_fusion`: find the BOM of a product variant
      and write its product, template, type and line commands, creating it
      when there is none. A product id that is not stored fails when its
      template is read. */
  function CreateOrUpdateForProduct(s: BomStore, product: nat, commands: seq<LineCommand>)
    : (r: Result<(BomStore, nat), BomError>)
    requires s.Valid()
    ensures product !in s.products <==> r == Failure(MissingProduct(product))
    ensures r.Success? ==>
              var (s', b) := r.value;
              && s'.Valid() && s'.lines == s.lines && s'.templates == s.templates && s'.products == s.products
              && b in s'.boms.rows
              && s'.boms.rows[b] == BomRecord(s.products[product], Some(product), Normal, commands)
              && (forall k :: k in s.boms.rows && k != b ==> k in s'.boms.rows && s'.boms.rows[k] == s.boms.rows[k])
    // the BOM rewritten is the product's own: the first one whose `product_id` is the product
    ensures r.Success? && Search(s.boms, ForProduct(product)).Some? ==>
              && r.value.1 == Search(s.boms, ForProduct(product)).value
              && s.boms.rows[r.value.1].product == Some(product)
              && r.value.0.boms.rows.Keys == s.boms.rows.Keys
    ensures r.Success? && Search(s.boms, ForProduct(product)).None? ==>
              r.value.1 !in s.boms.rows && r.value.0.boms.rows.Keys == s.boms.rows.Keys + {r.value.1}
  {
    if product !in s.products then Failure(MissingProduct(product))
    else
      var record := BomRecord(s.products[product], Some(product), Normal, commands);
      match Search(s.boms, ForProduct(product))
      case None => Success((s.(boms := Insert(s.boms, record)), s.boms.nextId))
      case Some(b) => Success((s.(boms := Update(s.boms, b, record)), b))
  }
}

=== FILE: mrp_bom_proofs.dfy ===
/**
 What `MrpBom.SyncFromFusion` does to the line table, stated per line and per
 product, and proved through an invariant of the loop over the components.
 */
module MrpBomProofs {
  import opened Wrappers
  import opened Tables
  import opened MrpBom

  /** The position of the last component that resolves to product `q`; the
      component whose quantity that product's line ends up with. */
  function LastMention(comps: seq<Component>, resolve: Resolver, q: nat): (r: Option<nat>)
    ensures r.Some? ==> r.value < |comps| && ProductOf(comps[r.value], resolve) == Some(q)
    ensures r.Some? ==> forall j :: r.value < j < |comps| ==> ProductOf(comps[j], resolve) != Some(q)
    ensures r.None? ==> forall j :: 0 <= j < |comps| ==> ProductOf(comps[j], resolve) != Some(q)
    decreases |comps|
  {
    if comps == [] then None
    else if ProductOf(comps[|comps| - 1], resolve) == Some(q) then Some(|comps| - 1)
    else LastMention(comps[..|comps| - 1], resolve, q)
  }

  ghost predicate HasLine(rows: map<nat, BomLine>, b: nat, q: nat) {
    exists k :: k in rows && rows[k].bom == b && rows[k].product == q
  }

  /** BOM `b` holds two lines for product `q`. */
  ghost predicate Duplicated(rows: map<nat, BomLine>, b: nat, q: nat) {
    exists k1, k2 :: k1 in rows && k2 in rows && k1 != k2
      && rows[k1].bom == b && rows[k1].product == q
      && rows[k2].bom == b && rows[k2].product == q
  }

  /** A component the loop gets through without raising: every key it reads
      is there, and a product it resolves to has at most one line in BOM `b`. */
  ghost predicate ComponentOk(rows: map<nat, BomLine>, b: nat, c: Component, resolve: Resolver) {
    && c.name.Present? && c.fusionUuid.Present? && c.configurationId.Present?
    && (ProductOf(c, resolve).Some? ==>
          c.quantity.Present? && !Duplicated(rows, b, ProductOf(c, resolve).value))
  }

  ghost predicate AllOk(rows: map<nat, BomLine>, b: nat, comps: seq<Component>, resolve: Resolver) {
    forall i :: 0 <= i < |comps| ==> ComponentOk(rows, b, comps[i], resolve)
  }

  /** `l` is what pre-existing line `l0` becomes: same BOM and product, and the
      quantity of the last component naming its product when it is a line of
      BOM `b` that some component names. */
  ghost predicate Refreshed(b: nat, l0: BomLine, comps: seq<Component>, resolve: Resolver, l: BomLine) {
    && l.bom == l0.bom && l.product == l0.product
    && (if l0.bom == b && LastMention(comps, resolve, l0.product).Some?
        then comps[LastMention(comps, resolve, l0.product).value].quantity == Present(l.qty)
        else l.qty == l0.qty)
  }

  /** A line created by the sync: in BOM `b`, for a product some component
      names and BOM `b` had no line for, with the last such component's
      quantity. */
  ghost predicate Created(b: nat, rows0: map<nat, BomLine>, comps: seq<Component>, resolve: Resolver, l: BomLine) {
    && l.bom == b && !HasLine(rows0, b, l.product)
    && LastMention(comps, resolve, l.product).Some?
    && comps[LastMention(comps, resolve, l.product).value].quantity == Present(l.qty)
  }

  ghost predicate OldLinesInv(b: nat, rows0: map<nat, BomLine>, comps: seq<Component>, resolve: Resolver, rows: map<nat, BomLine>) {
    forall k :: k in rows0 ==> k in rows && Refreshed(b, rows0[k], comps, resolve, rows[k])
  }

  ghost predicate NewLinesInv(b: nat, rows0: map<nat, BomLine>, comps: seq<Component>, resolve: Resolver, rows: map<nat, BomLine>) {
    && (forall k :: k in rows && k !in rows0 ==> Created(b, rows0, comps, resolve, rows[k]))
    && (forall k1, k2 :: k1 in rows && k2 in rows && k1 !in rows0 && k2 !in rows0 && rows[k1].product == rows[k2].product ==> k1 == k2)
  }

  ghost predicate KeepInv(b: nat, rows0: map<nat, BomLine>, comps: seq<Component>, resolve: Resolver, keep: map<nat, bool>) {
    && (forall k :: k in rows0 && rows0[k].bom == b ==>
          k in keep && (keep[k] <==> LastMention(comps, resolve, rows0[k].product).Some?))
    && (forall k :: k in keep && !(k in rows0 && rows0[k].bom == b) ==> keep[k])
  }

  ghost predicate CoverInv(b: nat, rows0: map<nat, BomLine>, comps: seq<Component>, resolve: Resolver, rows: map<nat, BomLine>) {
    forall q :: LastMention(comps, resolve, q).Some? && !HasLine(rows0, b, q) ==> HasLine(rows, b, q)
  }

  /** The loop invariant after processing the prefix `comps`. */
  ghost predicate Inv(b: nat, l0: Table<BomLine>, comps: seq<Component>, resolve: Resolver, st: LoopState) {
    && st.lines.Valid() && l0.nextId <= st.lines.nextId
    && (forall k :: l0.nextId <= k < st.lines.nextId ==> k in st.lines.rows)
    && OldLinesInv(b, l0.rows, comps, resolve, st.lines.rows)
    && NewLinesInv(b, l0.rows, comps, resolve, st.lines.rows)
    && KeepInv(b, l0.rows, comps, resolve, st.keep)
    && CoverInv(b, l0.rows, comps, resolve, st.lines.rows)
  }

  lemma LastMentionSnoc(comps: seq<Component>, c: Component, resolve: Resolver, q: nat)
    ensures LastMention(comps + [c], resolve, q)
         == if ProductOf(c, resolve) == Some(q) then Some(|comps|) else LastMention(comps, resolve, q)
  {
    assert (comps + [c])[..|comps|] == comps;
  }

  lemma {:induction false} RunInv(b: nat, l0: Table<BomLine>, comps: seq<Component>, resolve: Resolver)
    requires l0.Valid()
    ensures Run(b, LoopState(l0, InitialKeep(l0, b)), comps, resolve).Success?
        <==> AllOk(l0.rows, b, comps, resolve)
    ensures Run(b, LoopState(l0, InitialKeep(l0, b)), comps, resolve).Success? ==>
              Inv(b, l0, comps, resolve, Run(b, LoopState(l0, InitialKeep(l0, b)), comps, resolve).value)
    decreases |comps|
  {
    var st0 := LoopState(l0, InitialKeep(l0, b));
    if comps == [] {
    } else {
      var prefix := comps[..|comps| - 1];
      var c := comps[|comps| - 1];
      assert comps == prefix + [c];
      RunInv(b, l0, prefix, resolve);
      assert AllOk(l0.rows, b, comps, resolve) <==> AllOk(l0.rows, b, prefix, resolve) && ComponentOk(l0.rows, b, c, resolve) by {
        if AllOk(l0.rows, b, prefix, resolve) && ComponentOk(l0.rows, b, c, resolve) {
          forall i | 0 <= i < |comps| ensures ComponentOk(l0.rows, b, comps[i], resolve) {
            if i < |prefix| { assert comps[i] == prefix[i]; }
          }
        }
        if AllOk(l0.rows, b, comps, resolve) {
          forall i | 0 <= i < |prefix| ensures ComponentOk(l0.rows, b, prefix[i], resolve) {
            assert comps[i] == prefix[i];
          }
        }
      }
      match Run(b, st0, prefix, resolve)
      case Failure(_) =>
      case Success(st) =>
        StepInv(b, l0, prefix, resolve, st, c);
    }
  }

  lemma StepInv(b: nat, l0: Table<BomLine>, comps: seq<Component>, resolve: Resolver, st: LoopState, c: Component)
    requires l0.Valid() && Inv(b, l0, comps, resolve, st)
    ensures Step(b, st, c, resolve).Success? <==> ComponentOk(l0.rows, b, c, resolve)
    ensures Step(b, st, c, resolve).Success? ==> Inv(b, l0, comps + [c], resolve, Step(b, st, c, resolve).value)
  {
    if c.name.Absent? || c.fusionUuid.Absent? || c.configurationId.Absent? {
    } else if ProductOf(c, resolve).None? {
      StepSkip(b, l0, comps, resolve, st, c);
    } else {
      var q := ProductOf(c, resolve).value;
      if c.quantity.Absent? {
      } else if Duplicated(l0.rows, b, q) {
        StepDuplicate(b, l0, comps, resolve, st, c, q);
      } else if Search(st.lines, LineOf(b, q)).None? {
        StepCreate(b, l0, comps, resolve, st, c, q);
      } else {
        StepUpdate(b, l0, comps, resolve, st, c, q);
      }
    }
  }

  lemma StepSkip(b: nat, l0: Table<BomLine>, comps: seq<Component>, resolve: Resolver, st: LoopState, c: Component)
    requires l0.Valid() && Inv(b, l0, comps, resolve, st)
    requires c.name.Present? && c.fusionUuid.Present? && c.configurationId.Present? && ProductOf(c, resolve).None?
    ensures Step(b, st, c, resolve) == Success(st)
    ensures Inv(b, l0, comps + [c], resolve, st)
  {
    var comps' := comps + [c];
    forall q ensures LastMention(comps', resolve, q) == LastMention(comps, resolve, q) {
      LastMentionSnoc(comps, c, resolve, q);
    }
    forall i | 0 <= i < |comps| ensures comps'[i] == comps[i] { }
  }

  lemma StepDuplicate(b: nat, l0: Table<BomLine>, comps: seq<Component>, resolve: Resolver, st: LoopState, c: Component, q: nat)
    requires st.lines.Valid() && OldLinesInv(b, l0.rows, comps, resolve, st.lines.rows)
    requires c.name.Present? && c.fusionUuid.Present? && c.configurationId.Present? && c.quantity.Present?
    requires ProductOf(c, resolve) == Some(q) && Duplicated(l0.rows, b, q)
    ensures Step(b, st, c, resolve).Failure?
  {
    var k1, k2 :| k1 in l0.rows && k2 in l0.rows && k1 != k2
      && l0.rows[k1].bom == b && l0.rows[k1].product == q
      && l0.rows[k2].bom == b && l0.rows[k2].product == q;
    var rows := st.lines.rows;
    assert k1 in rows && rows[k1].bom == b && rows[k1].product == q;
    assert k2 in rows && rows[k2].bom == b && rows[k2].product == q;
    assert LineOf(b, q)(rows[k1]) && LineOf(b, q)(rows[k2]);
    var k := Search(st.lines, LineOf(b, q)).value;
    assert k <= k1 && k <= k2;
    var other := if k1 == k then k2 else k1;
    assert k + 1 <= other < st.lines.nextId && other in rows && LineOf(b, q)(rows[other]);
  }

  lemma StepCreate(b: nat, l0: Table<BomLine>, comps: seq<Component>, resolve: Resolver, st: LoopState, c: Component, q: nat)
    requires l0.Valid() && Inv(b, l0, comps, resolve, st)
    requires c.name.Present? && c.fusionUuid.Present? && c.configurationId.Present? && c.quantity.Present?
    requires ProductOf(c, resolve) == Some(q) && !Duplicated(l0.rows, b, q)
    requires Search(st.lines, LineOf(b, q)).None?
    ensures Step(b, st, c, resolve).Success?
    ensures Inv(b, l0, comps + [c], resolve, Step(b, st, c, resolve).value)
  {
    var rows := st.lines.rows;
    var n := st.lines.nextId;
    var st' := Step(b, st, c, resolve).value;
    assert st' == st.(lines := Insert(st.lines, BomLine(b, q, c.quantity.value)));
    assert NoLineFor(rows, b, q) by {
      forall k | k in rows ensures !(rows[k].bom == b && rows[k].product == q) {
        assert !LineOf(b, q)(rows[k]);
      }
    }
    assert n !in l0.rows;
    assert NoLineFor(l0.rows, b, q) by {
      forall k | k in l0.rows ensures !(l0.rows[k].bom == b && l0.rows[k].product == q) {
        assert k in rows && rows[k].bom == l0.rows[k].bom && rows[k].product == l0.rows[k].product;
      }
    }
    CreateOld(b, l0.rows, comps, resolve, rows, c, q, n);
    CreateNew(b, l0.rows, comps, resolve, rows, c, q, n);
    CreateKeep(b, l0.rows, comps, resolve, rows, st.keep, c, q);
    CreateCover(b, l0.rows, comps, resolve, rows, c, q, n);
  }

  ghost predicate NoLineFor(rows: map<nat, BomLine>, b: nat, q: nat) {
    forall k :: k in rows ==> !(rows[k].bom == b && rows[k].product == q)
  }

  lemma CreateOld(b: nat, rows0: map<nat, BomLine>, comps: seq<Component>, resolve: Resolver, rows: map<nat, BomLine>, c: Component, q: nat, n: nat)
    requires OldLinesInv(b, rows0, comps, resolve, rows) && NoLineFor(rows, b, q) && n !in rows
    requires ProductOf(c, resolve) == Some(q) && c.quantity.Present?
    ensures OldLinesInv(b, rows0, comps + [c], resolve, rows[n := BomLine(b, q, c.quantity.value)])
  {
    var comps' := comps + [c];
    var rows' := rows[n := BomLine(b, q, c.quantity.value)];
    forall k | k in rows0 ensures k in rows' && Refreshed(b, rows0[k], comps', resolve, rows'[k]) {
      var p := rows0[k].product;
      LastMentionSnoc(comps, c, resolve, p);
      assert rows'[k] == rows[k];
      if rows0[k].bom == b {
        assert p != q;
        if LastMention(comps, resolve, p).Some? {
          assert comps'[LastMention(comps, resolve, p).value] == comps[LastMention(comps, resolve, p).value];
        }
      }
    }
  }

  lemma CreateNew(b: nat, rows0: map<nat, BomLine>, comps: seq<Component>, resolve: Resolver, rows: map<nat, BomLine>, c: Component, q: nat, n: nat)
    requires NewLinesInv(b, rows0, comps, resolve, rows) && NoLineFor(rows, b, q) && n !in rows && n !in rows0
    requires NoLineFor(rows0, b, q)
    requires ProductOf(c, resolve) == Some(q) && c.quantity.Present?
    ensures NewLinesInv(b, rows0, comps + [c], resolve, rows[n := BomLine(b, q, c.quantity.value)])
  {
    var comps' := comps + [c];
    var rows' := rows[n := BomLine(b, q, c.quantity.value)];
    forall k | k in rows' && k !in rows0 ensures Created(b, rows0, comps', resolve, rows'[k]) {
      var p := rows'[k].product;
      LastMentionSnoc(comps, c, resolve, p);
      if k == n {
        assert comps'[|comps|] == c;
      } else {
        assert rows'[k] == rows[k] && Created(b, rows0, comps, resolve, rows[k]);
        assert p != q;
        assert comps'[LastMention(comps, resolve, p).value] == comps[LastMention(comps, resolve, p).value];
      }
    }
  }

  lemma CreateKeep(b: nat, rows0: map<nat, BomLine>, comps: seq<Component>, resolve: Resolver, rows: map<nat, BomLine>, keep: map<nat, bool>, c: Component, q: nat)
    requires KeepInv(b, rows0, comps, resolve, keep) && OldLinesInv(b, rows0, comps, resolve, rows) && NoLineFor(rows, b, q)
    requires ProductOf(c, resolve) == Some(q)
    ensures KeepInv(b, rows0, comps + [c], resolve, keep)
  {
    forall k | k in rows0 && rows0[k].bom == b
      ensures k in keep && (keep[k] <==> LastMention(comps + [c], resolve, rows0[k].product).Some?)
    {
      LastMentionSnoc(comps, c, resolve, rows0[k].product);
      assert k in rows;
    }
  }

  lemma CreateCover(b: nat, rows0: map<nat, BomLine>, comps: seq<Component>, resolve: Resolver, rows: map<nat, BomLine>, c: Component, q: nat, n: nat)
    requires CoverInv(b, rows0, comps, resolve, rows) && n !in rows
    requires ProductOf(c, resolve) == Some(q) && c.quantity.Present?
    ensures CoverInv(b, rows0, comps + [c], resolve, rows[n := BomLine(b, q, c.quantity.value)])
  {
    var rows' := rows[n := BomLine(b, q, c.quantity.value)];
    forall p | LastMention(comps + [c], resolve, p).Some? && !HasLine(rows0, b, p) ensures HasLine(rows', b, p) {
      LastMentionSnoc(comps, c, resolve, p);
      if p == q {
        assert n in rows' && rows'[n].bom == b && rows'[n].product == q;
      } else {
        assert HasLine(rows, b, p);
        var k :| k in rows && rows[k].bom == b && rows[k].product == p;
        assert k in rows' && rows'[k] == rows[k];
      }
    }
  }

  lemma StepUpdate(b: nat, l0: Table<BomLine>, comps: seq<Component>, resolve: Resolver, st: LoopState, c: Component, q: nat)
    requires l0.Valid() && Inv(b, l0, comps, resolve, st)
    requires c.name.Present? && c.fusionUuid.Present? && c.configurationId.Present? && c.quantity.Present?
    requires ProductOf(c, resolve) == Some(q) && !Duplicated(l0.rows, b, q)
    requires Search(st.lines, LineOf(b, q)).Some?
    ensures Step(b, st, c, resolve).Success?
    ensures Inv(b, l0, comps + [c], resolve, Step(b, st, c, resolve).value)
  {
    var rows := st.lines.rows;
    var k := Search(st.lines, LineOf(b, q)).value;
    assert rows[k].bom == b && rows[k].product == q;
    OnlyLineFound(b, l0.rows, comps, resolve, rows, q, k);
    StepUpdateResult(b, st, c, resolve, q, k);
    UpdateOld(b, l0.rows, comps, resolve, rows, c, q, k);
    UpdateNew(b, l0.rows, comps, resolve, rows, c, q, k);
    UpdateKeep(b, l0.rows, comps, resolve, rows, st.keep, c, q, k);
    UpdateCover(b, l0.rows, comps, resolve, rows, c, q, k);
  }

  /** What one step does to a product's only line: its quantity is
      rewritten and it is marked as matched. */
  lemma StepUpdateResult(b: nat, st: LoopState, c: Component, resolve: Resolver, q: nat, k: nat)
    requires st.lines.Valid()
    requires c.name.Present? && c.fusionUuid.Present? && c.configurationId.Present? && c.quantity.Present?
    requires ProductOf(c, resolve) == Some(q)
    requires Search(st.lines, LineOf(b, q)) == Some(k) && OnlyLine(st.lines.rows, b, q, k)
    ensures Step(b, st, c, resolve)
         == Success(LoopState(Update(st.lines, k, st.lines.rows[k].(qty := c.quantity.value)), st.keep[k := true]))
  {
    assert forall j :: j in st.lines.rows && j != k ==> !LineOf(b, q)(st.lines.rows[j]);
  }

  /** `k` is the one line of BOM `b` for product `q`. */
  ghost predicate OnlyLine(rows: map<nat, BomLine>, b: nat, q: nat, k: nat) {
    && k in rows && rows[k].bom == b && rows[k].product == q
    && forall j :: j in rows && j != k ==> !(rows[j].bom == b && rows[j].product == q)
  }

  /** When the loop finds a line for a product with no duplicate line, it is the only
      one. */
  lemma OnlyLineFound(b: nat, rows0: map<nat, BomLine>, comps: seq<Component>, resolve: Resolver,
                      rows: map<nat, BomLine>, q: nat, k: nat)
    requires OldLinesInv(b, rows0, comps, resolve, rows) && NewLinesInv(b, rows0, comps, resolve, rows)
    requires !Duplicated(rows0, b, q) && k in rows && rows[k].bom == b && rows[k].product == q
    ensures OnlyLine(rows, b, q, k)
  {
    forall j | j in rows && j != k ensures !(rows[j].bom == b && rows[j].product == q) {
      if k in rows0 && j in rows0 {
        assert rows[j].bom == rows0[j].bom && rows[j].product == rows0[j].product;
        assert rows[k].bom == rows0[k].bom && rows[k].product == rows0[k].product;
      } else if k in rows0 {
        assert HasLine(rows0, b, q);
      } else if j in rows0 {
        assert rows0[j].bom == b ==> HasLine(rows0, b, rows0[j].product);
      }
    }
  }

  lemma UpdateOld(b: nat, rows0: map<nat, BomLine>, comps: seq<Component>, resolve: Resolver, rows: map<nat, BomLine>, c: Component, q: nat, k: nat)
    requires OldLinesInv(b, rows0, comps, resolve, rows) && OnlyLine(rows, b, q, k)
    requires ProductOf(c, resolve) == Some(q) && c.quantity.Present?
    ensures OldLinesInv(b, rows0, comps + [c], resolve, rows[k := rows[k].(qty := c.quantity.value)])
  {
    var comps' := comps + [c];
    var rows' := rows[k := rows[k].(qty := c.quantity.value)];
    forall j | j in rows0 ensures j in rows' && Refreshed(b, rows0[j], comps', resolve, rows'[j]) {
      var p := rows0[j].product;
      LastMentionSnoc(comps, c, resolve, p);
      if j == k {
        assert comps'[|comps|] == c;
      } else if rows0[j].bom == b {
        assert p != q;
        if LastMention(comps, resolve, p).Some? {
          assert comps'[LastMention(comps, resolve, p).value] == comps[LastMention(comps, resolve, p).value];
        }
      }
    }
  }

  lemma UpdateNew(b: nat, rows0: map<nat, BomLine>, comps: seq<Component>, resolve: Resolver, rows: map<nat, BomLine>, c: Component, q: nat, k: nat)
    requires NewLinesInv(b, rows0, comps, resolve, rows) && OnlyLine(rows, b, q, k)
    requires ProductOf(c, resolve) == Some(q) && c.quantity.Present?
    ensures NewLinesInv(b, rows0, comps + [c], resolve, rows[k := rows[k].(qty := c.quantity.value)])
  {
    var comps' := comps + [c];
    var rows' := rows[k := rows[k].(qty := c.quantity.value)];
    forall j | j in rows' && j !in rows0 ensures Created(b, rows0, comps', resolve, rows'[j]) {
      var p := rows'[j].product;
      LastMentionSnoc(comps, c, resolve, p);
      assert Created(b, rows0, comps, resolve, rows[j]);
      if j == k {
        assert comps'[|comps|] == c;
      } else {
        assert p != q;
        assert comps'[LastMention(comps, resolve, p).value] == comps[LastMention(comps, resolve, p).value];
      }
    }
  }

  lemma UpdateKeep(b: nat, rows0: map<nat, BomLine>, comps: seq<Component>, resolve: Resolver, rows: map<nat, BomLine>, keep: map<nat, bool>, c: Component, q: nat, k: nat)
    requires KeepInv(b, rows0, comps, resolve, keep) && OldLinesInv(b, rows0, comps, resolve, rows) && OnlyLine(rows, b, q, k)
    requires ProductOf(c, resolve) == Some(q)
    ensures KeepInv(b, rows0, comps + [c], resolve, keep[k := true])
  {
    forall j | j in rows0 && rows0[j].bom == b
      ensures j in keep[k := true] && (keep[k := true][j] <==> LastMention(comps + [c], resolve, rows0[j].product).Some?)
    {
      LastMentionSnoc(comps, c, resolve, rows0[j].product);
      assert j in rows;
    }
  }

  lemma UpdateCover(b: nat, rows0: map<nat, BomLine>, comps: seq<Component>, resolve: Resolver, rows: map<nat, BomLine>, c: Component, q: nat, k: nat)
    requires CoverInv(b, rows0, comps, resolve, rows) && OnlyLine(rows, b, q, k)
    requires ProductOf(c, resolve) == Some(q) && c.quantity.Present?
    ensures CoverInv(b, rows0, comps + [c], resolve, rows[k := rows[k].(qty := c.quantity.value)])
  {
    var rows' := rows[k := rows[k].(qty := c.quantity.value)];
    forall p | LastMention(comps + [c], resolve, p).Some? && !HasLine(rows0, b, p) ensures HasLine(rows', b, p) {
      LastMentionSnoc(comps, c, resolve, p);
      if p == q {
        assert k in rows' && rows'[k].bom == b && rows'[k].product == q;
      } else {
        assert HasLine(rows, b, p);
        var j :| j in rows && rows[j].bom == b && rows[j].product == p;
        assert j in rows' && rows'[j].bom == b && rows'[j].product == p;
      }
    }
  }

  /** What the sync leaves in the line table, relative to the table `rows0` it
      started from, for BOM `b`. */
  ghost predicate SyncedLines(b: nat, rows0: map<nat, BomLine>, comps: seq<Component>, resolve: Resolver, rows: map<nat, BomLine>) {
    // lines of other BOMs are untouched
    && (forall k :: k in rows0 && rows0[k].bom != b ==> k in rows && rows[k] == rows0[k])
    // a line of BOM b survives exactly when some component resolves to its product
    && (forall k :: k in rows0 && rows0[k].bom == b ==> (k in rows <==> LastMention(comps, resolve, rows0[k].product).Some?))
    // a surviving line keeps its product and takes the last such component's quantity
    && (forall k :: k in rows0 && k in rows ==> Refreshed(b, rows0[k], comps, resolve, rows[k]))
    // every other line is new, for a product BOM b had no line for
    && (forall k :: k in rows && k !in rows0 ==> Created(b, rows0, comps, resolve, rows[k]))
    // every product some component resolves to has exactly one line in BOM b
    && (forall q :: LastMention(comps, resolve, q).Some? ==> HasLine(rows, b, q) && !Duplicated(rows, b, q))
  }

  /** The line reconciliation of `sync_from_fusion`: it succeeds exactly when
      the template is stored, every component has the keys it reads and no
      resolved product has two lines in the BOM, and then the line table is as
      `SyncedLines` says. */
  lemma SyncFromFusionLines(s: BomStore, tmpl: nat, comps: seq<Component>, resolve: Resolver)
    requires s.Valid()
    ensures SyncFromFusion(s, tmpl, Present(comps), resolve).Success?
        <==> tmpl in s.templates && AllOk(s.lines.rows, FindOrCreateForTemplate(s.boms, tmpl).1, comps, resolve)
    ensures SyncFromFusion(s, tmpl, Present(comps), resolve).Success? ==>
              var (s', b) := SyncFromFusion(s, tmpl, Present(comps), resolve).value;
              && SyncedLines(b, s.lines.rows, comps, resolve, s'.lines.rows)
              && s.lines.nextId <= s'.lines.nextId
              && (forall k :: s.lines.nextId <= k < s'.lines.nextId ==> k in s'.lines.rows)
  {
    var b := FindOrCreateForTemplate(s.boms, tmpl).1;
    RunInv(b, s.lines, comps, resolve);
    var run := Run(b, LoopState(s.lines, InitialKeep(s.lines, b)), comps, resolve);
    if tmpl in s.templates && run.Success? {
      var st := run.value;
      var obsolete := set k | k in st.keep && !st.keep[k];
      assert SyncFromFusion(s, tmpl, Present(comps), resolve).value.0.lines.rows == st.lines.rows - obsolete;
      RemoveObsolete(b, s.lines.rows, comps, resolve, st.lines.rows, st.keep);
    }
  }

  /** A BOM the sync creates starts without lines: no stored line can belong
      to it, so the sync deletes and rewrites none of the old lines, and every
      line of the new BOM is one it created. */
  lemma NewBomStartsEmpty(s: BomStore, tmpl: nat, comps: seq<Component>, resolve: Resolver)
    requires s.Valid() && Search(s.boms, ForTemplate(tmpl)).None?
    ensures InitialKeep(s.lines, FindOrCreateForTemplate(s.boms, tmpl).1) == map[]
    ensures SyncFromFusion(s, tmpl, Present(comps), resolve).Success? ==>
              var (s', b) := SyncFromFusion(s, tmpl, Present(comps), resolve).value;
              && (forall k :: k in s.lines.rows ==> k in s'.lines.rows && s'.lines.rows[k] == s.lines.rows[k])
              && (forall k :: k in s'.lines.rows && s'.lines.rows[k].bom == b ==>
                    k !in s.lines.rows && Created(b, s.lines.rows, comps, resolve, s'.lines.rows[k]))
  {
    var b := FindOrCreateForTemplate(s.boms, tmpl).1;
    assert forall k :: k in s.lines.rows ==> s.lines.rows[k].bom != b;
    SyncFromFusionLines(s, tmpl, comps, resolve);
  }

  /** Deleting the lines the keep map leaves unmatched turns the loop's
      invariant into `SyncedLines`. */
  lemma RemoveObsolete(b: nat, rows0: map<nat, BomLine>, comps: seq<Component>, resolve: Resolver,
                       mid: map<nat, BomLine>, keep: map<nat, bool>)
    requires AllOk(rows0, b, comps, resolve)
    requires OldLinesInv(b, rows0, comps, resolve, mid) && NewLinesInv(b, rows0, comps, resolve, mid)
    requires KeepInv(b, rows0, comps, resolve, keep) && CoverInv(b, rows0, comps, resolve, mid)
    ensures SyncedLines(b, rows0, comps, resolve, mid - (set k | k in keep && !keep[k]))
  {
    var rows := mid - (set k | k in keep && !keep[k]);
    RemoveObsoleteLines(b, rows0, comps, resolve, mid, keep);
    forall q | LastMention(comps, resolve, q).Some? ensures HasLine(rows, b, q) && !Duplicated(rows, b, q) {
      var m := LastMention(comps, resolve, q).value;
      assert ComponentOk(rows0, b, comps[m], resolve);
      OneLinePerProduct(b, rows0, comps, resolve, mid, rows, q);
    }
  }

  /** The line-by-line part of `RemoveObsolete`. */
  lemma RemoveObsoleteLines(b: nat, rows0: map<nat, BomLine>, comps: seq<Component>, resolve: Resolver,
                            mid: map<nat, BomLine>, keep: map<nat, bool>)
    requires OldLinesInv(b, rows0, comps, resolve, mid) && NewLinesInv(b, rows0, comps, resolve, mid)
    requires KeepInv(b, rows0, comps, resolve, keep)
    ensures var rows := mid - (set k | k in keep && !keep[k]);
            && rows.Keys <= mid.Keys && (forall k :: k in rows ==> rows[k] == mid[k])
            && (forall k :: k in mid && k !in rows ==> k in rows0 && LastMention(comps, resolve, rows0[k].product).None?)
            && (forall k :: k in rows0 && rows0[k].bom != b ==> k in rows && rows[k] == rows0[k])
            && (forall k :: k in rows0 && rows0[k].bom == b ==> (k in rows <==> LastMention(comps, resolve, rows0[k].product).Some?))
            && (forall k :: k in rows0 && k in rows ==> Refreshed(b, rows0[k], comps, resolve, rows[k]))
            && (forall k :: k in rows && k !in rows0 ==> Created(b, rows0, comps, resolve, rows[k]))
  {
    var obsolete := set k | k in keep && !keep[k];
    assert forall k :: k in obsolete <==> k in rows0 && rows0[k].bom == b && LastMention(comps, resolve, rows0[k].product).None?;
  }

  lemma OneLinePerProduct(b: nat, rows0: map<nat, BomLine>, comps: seq<Component>, resolve: Resolver,
                          mid: map<nat, BomLine>, rows: map<nat, BomLine>, q: nat)
    requires OldLinesInv(b, rows0, comps, resolve, mid) && NewLinesInv(b, rows0, comps, resolve, mid)
    requires CoverInv(b, rows0, comps, resolve, mid)
    requires LastMention(comps, resolve, q).Some? && !Duplicated(rows0, b, q)
    requires rows.Keys <= mid.Keys && (forall k :: k in rows ==> rows[k] == mid[k])
    requires forall k :: k in mid && k !in rows ==> k in rows0 && LastMention(comps, resolve, rows0[k].product).None?
    ensures HasLine(rows, b, q) && !Duplicated(rows, b, q)
  {
    if HasLine(rows0, b, q) {
      var k :| k in rows0 && rows0[k].bom == b && rows0[k].product == q;
      assert k in mid && mid[k].product == q;
      assert k in rows;
      forall j | j in rows && j != k ensures !(rows[j].bom == b && rows[j].product == q) {
        if j in rows0 {
          assert mid[j].bom == rows0[j].bom && mid[j].product == rows0[j].product;
        } else {
          assert Created(b, rows0, comps, resolve, mid[j]);
        }
      }
    } else {
      assert HasLine(mid, b, q);
      var k :| k in mid && mid[k].bom == b && mid[k].product == q;
      assert k in rows;
      forall j | j in rows && j != k ensures !(rows[j].bom == b && rows[j].product == q) {
        if j in rows0 {
          assert mid[j].bom == rows0[j].bom && mid[j].product == rows0[j].product;
        }
      }
    }
  }

  lemma StepUnresolved(b: nat, st: LoopState, c: Component, resolve: Resolver)
    requires st.lines.Valid()
    requires c.name.Present? && c.fusionUuid.Present? && c.configurationId.Present?
    requires ProductOf(c, resolve).None?
    ensures Step(b, st, c, resolve) == Success(st)
  {
  }

  /** The loop over `xs + [d]` is the loop over `xs` followed by one step. */
  lemma RunSnoc(b: nat, st: LoopState, xs: seq<Component>, d: Component, resolve: Resolver)
    requires st.lines.Valid()
    ensures Run(b, st, xs + [d], resolve)
         == if Run(b, st, xs, resolve).Success? then Step(b, Run(b, st, xs, resolve).value, d, resolve)
            else Run(b, st, xs, resolve)
  {
    assert (xs + [d])[..|xs|] == xs;
  }

  /** A component that resolves to no product is skipped: wherever it sits in
      the list, the loop does exactly what it does without it. */
  lemma {:induction false} RunSkipsUnresolved(b: nat, st: LoopState, before: seq<Component>, c: Component,
                                              after: seq<Component>, resolve: Resolver)
    requires st.lines.Valid()
    requires c.name.Present? && c.fusionUuid.Present? && c.configurationId.Present?
    requires ProductOf(c, resolve).None?
    ensures Run(b, st, before + [c] + after, resolve) == Run(b, st, before + after, resolve)
    decreases |after|
  {
    if after == [] {
      assert before + [c] + after == before + [c];
      assert before + after == before;
      RunSnoc(b, st, before, c, resolve);
      if Run(b, st, before, resolve).Success? {
        StepUnresolved(b, Run(b, st, before, resolve).value, c, resolve);
      }
    } else {
      var init := after[..|after| - 1];
      var d := after[|after| - 1];
      RunSkipsUnresolved(b, st, before, c, init, resolve);
      assert before + [c] + after == (before + [c] + init) + [d];
      assert before + after == (before + init) + [d];
      RunSnoc(b, st, before + [c] + init, d, resolve);
      RunSnoc(b, st, before + init, d, resolve);
    }
  }

  lemma SyncSkipsUnresolved(s: BomStore, tmpl: nat, before: seq<Component>, c: Component,
                            after: seq<Component>, resolve: Resolver)
    requires s.Valid()
    requires c.name.Present? && c.fusionUuid.Present? && c.configurationId.Present?
    requires ProductOf(c, resolve).None?
    ensures SyncFromFusion(s, tmpl, Present(before + [c] + after), resolve)
         == SyncFromFusion(s, tmpl, Present(before + after), resolve)
  {
    var b := FindOrCreateForTemplate(s.boms, tmpl).1;
    RunSkipsUnresolved(b, LoopState(s.lines, InitialKeep(s.lines, b)), before, c, after, resolve);
  }

  /** Looking the template's BOM up again after a find-or-create finds the
      same BOM and creates nothing. */
  lemma FindOrCreateStable(boms: Table<BomRecord>, tmpl: nat)
    requires boms.Valid()
    ensures FindOrCreateForTemplate(FindOrCreateForTemplate(boms, tmpl).0, tmpl) == FindOrCreateForTemplate(boms, tmpl)
  {
    var (boms', b) := FindOrCreateForTemplate(boms, tmpl);
    if Search(boms, ForTemplate(tmpl)).None? {
      assert ForTemplate(tmpl)(boms'.rows[b]);
      assert forall j :: j in boms'.rows && j != b ==> !ForTemplate(tmpl)(boms'.rows[j]);
    }
  }

  /** A line table the sync produced passes the same components again: no
      key is missing and every resolved product has a single line. */
  lemma SyncedLinesAllOk(b: nat, rows0: map<nat, BomLine>, comps: seq<Component>, resolve: Resolver, rows1: map<nat, BomLine>)
    requires AllOk(rows0, b, comps, resolve) && SyncedLines(b, rows0, comps, resolve, rows1)
    ensures AllOk(rows1, b, comps, resolve)
  {
    forall i | 0 <= i < |comps| ensures ComponentOk(rows1, b, comps[i], resolve) {
      assert ComponentOk(rows0, b, comps[i], resolve);
      if ProductOf(comps[i], resolve).Some? {
        assert LastMention(comps, resolve, ProductOf(comps[i], resolve).value).Some?;
      }
    }
  }

  /** Reconciling a reconciled line table with the same components leaves it
      as it is. */
  lemma SyncedLinesFixpoint(b: nat, rows0: map<nat, BomLine>, comps: seq<Component>, resolve: Resolver,
                            rows1: map<nat, BomLine>, rows2: map<nat, BomLine>)
    requires SyncedLines(b, rows0, comps, resolve, rows1) && SyncedLines(b, rows1, comps, resolve, rows2)
    ensures rows2 == rows1
  {
    forall k | k in rows1 ensures k in rows2 && rows2[k] == rows1[k] {
      var l := rows1[k];
      if l.bom == b {
        if k in rows0 {
          assert Refreshed(b, rows0[k], comps, resolve, l);
        } else {
          assert Created(b, rows0, comps, resolve, l);
        }
        assert Refreshed(b, l, comps, resolve, rows2[k]);
      }
    }
    forall k | k in rows2 ensures k in rows1 {
      var p := rows2[k].product;
      assert LastMention(comps, resolve, p).Some? ==> HasLine(rows1, b, p);
    }
  }

  /** Running the same sync twice changes nothing the second time. */
  lemma SyncIdempotent(s: BomStore, tmpl: nat, comps: seq<Component>, resolve: Resolver)
    requires s.Valid()
    requires SyncFromFusion(s, tmpl, Present(comps), resolve).Success?
    ensures SyncFromFusion(SyncFromFusion(s, tmpl, Present(comps), resolve).value.0, tmpl, Present(comps), resolve)
         == SyncFromFusion(s, tmpl, Present(comps), resolve)
  {
    var (s1, b) := SyncFromFusion(s, tmpl, Present(comps), resolve).value;
    FindOrCreateStable(s.boms, tmpl);
    SyncFromFusionLines(s, tmpl, comps, resolve);
    SyncedLinesAllOk(b, s.lines.rows, comps, resolve, s1.lines.rows);
    SyncFromFusionLines(s1, tmpl, comps, resolve);
    var (s2, b2) := SyncFromFusion(s1, tmpl, Present(comps), resolve).value;
    SyncedLinesFixpoint(b, s.lines.rows, comps, resolve, s1.lines.rows, s2.lines.rows);
    assert s1.lines.nextId !in s1.lines.rows;
    assert s2.lines == s1.lines;
  }

  /** Repeating the product-keyed upsert with the same arguments finds the BOM
      the first call left and leaves the store as it was. */
  lemma CreateOrUpdateForProductStable(s: BomStore, product: nat, commands: seq<LineCommand>)
    requires s.Valid()
    requires CreateOrUpdateForProduct(s, product, commands).Success?
    ensures CreateOrUpdateForProduct(CreateOrUpdateForProduct(s, product, commands).value.0, product, commands)
         == CreateOrUpdateForProduct(s, product, commands)
  {
    var (s1, b) := CreateOrUpdateForProduct(s, product, commands).value;
    var record := BomRecord(s.products[product], Some(product), Normal, commands);
    if Search(s.boms, ForProduct(product)).Some? {
      SearchAfterUpdate(s.boms, b, record, ForProduct(product));
    } else {
      SearchFindsInserted(s.boms, record, ForProduct(product));
    }
    assert s1.boms.rows[b := s1.boms.rows[b]] == s1.boms.rows;
  }
}

=== FILE: tables.dfy ===
/**
 An ORM table as an immutable value: rows keyed by database id, plus the id the
 next `create` will hand out. `search(domain, limit=1)` becomes `Search` with
 the domain as a predicate on rows, `create` becomes `Insert`, and `write` on
 one record becomes `Update`.

 Odoo's `search(limit=1)` returns the first match in the model's default
 order. The model fixes that choice as the least matching id; the properties
 proved elsewhere only rely on the result being *a* matching record.
 */
module Tables {
  import opened Wrappers

  datatype Table<R> = Table(rows: map<nat, R>, nextId: nat) {

    /** Every stored id was handed out before `nextId`. */
    ghost predicate Valid() {
      forall k :: k in rows ==> k < nextId
    }
  }

  /** The least id in `lo..hi` whose row satisfies `p`. */
  function FindFrom<R>(rows: map<nat, R>, p: R -> bool, lo: nat, hi: nat): (r: Option<nat>)
    requires lo <= hi
    ensures r.Some? ==> lo <= r.value < hi && r.value in rows && p(rows[r.value])
    ensures r.Some? ==> forall k :: lo <= k < r.value && k in rows ==> !p(rows[k])
    ensures r.None? ==> forall k :: lo <= k < hi && k in rows ==> !p(rows[k])
    decreases hi - lo
  {
    if lo == hi then None
    else if lo in rows && p(rows[lo]) then Some(lo)
    else FindFrom(rows, p, lo + 1, hi)
  }

  /** `search(domain, limit=1)`: some record satisfying the domain, or none
      exactly when no record satisfies it. */
  function Search<R>(t: Table<R>, p: R -> bool): (r: Option<nat>)
    requires t.Valid()
    ensures r.Some? ==> r.value in t.rows && p(t.rows[r.value])
    ensures r.Some? ==> forall k :: k in t.rows && p(t.rows[k]) ==> r.value <= k
    ensures r.None? <==> forall k :: k in t.rows ==> !p(t.rows[k])
  {
    FindFrom(t.rows, p, 0, t.nextId)
  }

  /** `create(vals)`: the new row gets the fresh id `t.nextId`; no other row
      changes. */
  function Insert<R>(t: Table<R>, row: R): (t': Table<R>)
    requires t.Valid()
    ensures t'.Valid()
    ensures t.nextId !in t.rows && t'.nextId == t.nextId + 1
    ensures t'.rows.Keys == t.rows.Keys + {t.nextId} && t'.rows[t.nextId] == row
    ensures forall k :: k in t.rows ==> t'.rows[k] == t.rows[k]
  {
    Table(t.rows[t.nextId := row], t.nextId + 1)
  }

  /** `record.write(vals)`: row `k` is replaced; ids and every other row are
      unchanged. */
  function Update<R>(t: Table<R>, k: nat, row: R): (t': Table<R>)
    requires t.Valid() && k in t.rows
    ensures t'.Valid() && t'.nextId == t.nextId
    ensures t'.rows.Keys == t.rows.Keys && t'.rows[k] == row
    ensures forall j :: j in t.rows && j != k ==> t'.rows[j] == t.rows[j]
  {
    Table(t.rows[k := row], t.nextId)
  }

  /** Creating a record does not change which record an earlier successful
      search finds: the new id is larger than every old one. */
  lemma SearchAfterInsert<R>(t: Table<R>, row: R, p: R -> bool)
    requires t.Valid() && Search(t, p).Some?
    ensures Search(Insert(t, row), p) == Search(t, p)
  {
    var k := Search(t, p).value;
    var t' := Insert(t, row);
    assert k in t'.rows && p(t'.rows[k]);
    assert forall j :: j in t'.rows && j < k ==> j in t.rows && t'.rows[j] == t.rows[j];
  }

  /** A search after creating a matching record, when nothing matched before,
      finds the new record. */
  lemma SearchFindsInserted<R>(t: Table<R>, row: R, p: R -> bool)
    requires t.Valid() && Search(t, p).None? && p(row)
    ensures Search(Insert(t, row), p) == Some(t.nextId)
  {
    var t' := Insert(t, row);
    assert p(t'.rows[t.nextId]);
    assert forall j :: j in t'.rows && j != t.nextId ==> j in t.rows && t'.rows[j] == t.rows[j];
  }

  /** A search after rewriting the record it found, keeping it matching,
      finds that record again. */
  lemma SearchAfterUpdate<R>(t: Table<R>, k: nat, row: R, p: R -> bool)
    requires t.Valid() && Search(t, p) == Some(k) && p(row)
    ensures Search(Update(t, k, row), p) == Some(k)
  {
    var t' := Update(t, k, row);
    assert p(t'.rows[k]);
    assert forall j :: j in t'.rows && j < k ==> t'.rows[j] == t.rows[j];
  }
}

=== FILE: wrappers.dfy ===
/**
 The optional-value and outcome types shared by the whole model.

 - `Option<T>`: a value that may be missing (a record `search` that found nothing,
   a product the resolver could not find).
 - `Result<T, E>`: an operation that either succeeds with a value or raises; a
   raised exception rolls the Odoo transaction back, so a `Failure` never
   carries a new store.
 - `Field<T>`: one key of a Python dictionary passed in from Fusion, which may be
   absent (`d['key']` raises `KeyError`, `d.get('key')` yields `None`).
 */
module Wrappers {

  datatype Option<+T> = None | Some(value: T) {

    function GetOr(default: T): T {
      match this
      case Some(v) => v
      case None => default
    }
  }

  datatype Result<+T, +E> = Success(value: T) | Failure(error: E)

  datatype Field<+T> = Absent | Present(value: T)
}
